=== FILE: README.md ===
# Playwright script-generation MCP server, modelled in Dafny

The system is a JSON-RPC gateway that speaks MCP over stdin/stdout. It sits
between an MCP client and a child `@playwright/mcp` process. The gateway:

- forwards every client request to the child;
- records `tools/call` requests as test steps in a steps file;
- answers one local tool, `playwright_script_generator`, itself;
- merges that tool into the child's `tools/list` reply.

A supervisor spawns the child and probes it with `ping` requests whose ids
start with `health_check_`. It marks the child ready on the first probe
reply, queues requests until then, routes each reply to the callback
registered under its id, and restarts the child after a non-zero exit. Two
builders turn a list of recorded actions into a replay script: a Node.js one
in `modules/script-generator.js` and a Python one in `start.py`.

The model is pure and functional. Node runs each handler to completion on
one thread, so every handler is a function from one state record to the
next. The event loop is `Gateway.Step` over an `Event`. Timers are counters
of pending callbacks. Writes to the child and to the client are kept as
traces (`toChild`, `toClient`). The environment's side of an event is a
parameter `Env`: `Date.now()`, and which writes to the child's stdin succeed,
given per write by the number of messages already written. A JavaScript throw is
a `None` or `Threw` result. Modules:

- `Json` (json.dfy): the JSON value, JavaScript member access, truthiness,
  `String()`, and the values on which `String()` throws.
- `Supervisor` (supervisor.dfy): `PlaywrightServiceManager`, the supervisor
  and request router of modules/service-manager.js. The same logic is
  duplicated as module-level functions in playwright-script-gen-mcp.js:131-401.
- `Callbacks` (callbacks.dfy): the reply callback `handleRequest` registers
  for each forwarded request, including the `tools/list` merge.
- `StepsLog` (steps_log.dfy): `TestStepsManager`, the step log, the steps
  file and the current page URL.
- `Methods` (methods.dfy): `isBrowserOperation`, the method-name test the
  gateway and the Node.js builder share.
- `Gateway` (gateway.dfy): `extractActionFromMethod`, `handleRequest`, the
  blank-line filter and the event loop.
- `GatewayProps` (gateway_props.dfy): properties that hold over several
  events, and concrete scenarios.
- `ScriptGen` (script_generator.dfy): `ScriptTemplate`, `ActionHandler` and
  `generateNodeScript`.
- `PyScript` (start_py.dfy): `PlaywrightTestTool.call`.

Where the code and its design description disagree, the model follows the
code:

- The current page URL is updated only when the JSON-RPC method is literally
  `browser/navigate` (playwright-script-gen-mcp.js:511). Only `tools/call`
  requests are recorded, so a recorded navigation never moves the page URL
  (`Callbacks.ToolCallKeepsPage`, `GatewayProps.NavigateScenario`).
- A request that arrives while no child exists waits on the start promise.
  Requests that arrive meanwhile find the new child and are queued. The probe
  reply drains the queue before the waiting request resumes, so the child
  receives the requests in reverse order (`GatewayProps.StartReordersRequests`).
  A `tools/call` step is recorded in the same handler that forwards it
  (`Gateway.Forward`), and the waiting request is recorded only when it
  resumes (`Gateway.HandleRequest`). So when both requests are `tools/call`
  requests, the step log also lists the later one first.
- `String()` on a parsed object with its own `toString` member, or on an
  array holding one, throws a TypeError (`Json.Printable`). The router logs
  every reply's id, so a reply with such an id is dropped rather than relayed
  (`Supervisor.ToStringKeyedIdIsDropped`). The Node.js builder throws on such
  a tool name, selector, wait value or target URL
  (`ScriptGen.ToStringKeyedNameThrows`, `ScriptGen.ToStringKeyedSelectorThrows`).
- The generator reads the steps through the gateway's own `loadTestSteps`,
  which hands back a parsed `null` unchanged (`Gateway.LoadForGenerator`).
- At start-up, `loadTestSteps` reads `testSteps.length` while `testSteps` is
  still in its temporal dead zone (playwright-script-gen-mcp.js:20, :31). The
  ReferenceError is caught, so the initial step list is always `[]`, whatever
  the file holds (`Gateway.Startup`).
- `cleanup` kills the child without clearing the reference. A killed child
  reports a null exit code, which is not 0, so its `close` schedules a
  restart (`Supervisor.CleanupThenSignalCloseRestarts`).
- The gateway imports `generatePythonScript`, which modules/script-generator.js
  does not export. Calling it therefore throws, and every generator call is
  answered with the -32700 parse-error reply (`GatewayProps.GeneratorAsWiredFails`).
  `Gateway.Generate` takes the emitter as a parameter, so the path the code
  evidently intends is modelled as well.

## Model

| member | source | states |
|---|---|---|
| Supervisor.Init | modules/service-manager.js:7-15 | A new supervisor has no child, is not ready, has no timer, and has empty queue, callback map and traces |
| Supervisor.ProbeIsRecognised | modules/service-manager.js:146-150 | The id of every probe the health check sends passes the router's probe test |
| Supervisor.NumericIdIsNotProbe | modules/service-manager.js:40 | No numeric request id is ever taken for a probe id |
| Supervisor.PrefixedClientIdIsProbe | modules/service-manager.js:40 | A client's string id with the `health_check_` prefix cannot be told apart from a probe id |
| Supervisor.ArrayIdCanBeProbe | modules/service-manager.js:40 | Because the test goes through `String(id)`, even an array id can pass as a probe id |
| Supervisor.Connect | modules/service-manager.js:18-124 | Spawning sets a child and schedules exactly one more first probe; every other part of the state is kept |
| Supervisor.HealthCheck | modules/service-manager.js:127-159 | The health check spawns when there is no child, stops the timer and drops readiness when stdin is missing, and writes one probe otherwise; a failed write only drops readiness; it never raises readiness and never touches the queue, the callbacks or the client |
| Supervisor.FirstProbeFires | modules/service-manager.js:119-123 | The 500 ms timer consumes one pending first probe and runs a health check only if a child exists |
| Supervisor.IntervalFires | modules/service-manager.js:51 | An interval tick runs a health check only while the timer is armed |
| Supervisor.RestartFires | modules/service-manager.js:99-101 | A pending restart spawns a child; readiness, the queue and the callbacks are unchanged |
| Supervisor.OnClose | modules/service-manager.js:85-103 | A close tears down the child, readiness and timer, and schedules a restart exactly when the exit code is not 0; queued requests and registered callbacks survive |
| Supervisor.OnError | modules/service-manager.js:106-116 | A child error causes the same teardown without a restart and keeps the queue and callbacks |
| Supervisor.Cleanup | modules/service-manager.js:276-287 | Cleanup stops the timer and leaves everything else as it was: the child reference, readiness, the queue, the callbacks, the waiters, the pending restarts and first probes, and both traces |
| Supervisor.CleanupThenSignalCloseRestarts | modules/service-manager.js:97-101 | The close that follows a cleanup kill (null exit code) schedules a restart |
| Supervisor.Start | modules/service-manager.js:162-201 | Start resolves at once with a ready child, waits without a timeout for an unready child, and spawns and waits with a timeout when there is no child |
| Supervisor.Send | modules/service-manager.js:213-249 | An undeliverable request is queued; a successful write is traced and its callback registered; a failed write registers nothing, respawns the child and parks the request for resending |
| Supervisor.Process | modules/service-manager.js:252-263 | Before readiness the request is appended at the tail of the queue; after readiness it is sent; readiness never rises |
| Supervisor.DrainStep | modules/service-manager.js:206-209 | With a deliverable child one iteration removes the head for good; otherwise the queue only rotates |
| Supervisor.DrainCanSpin | modules/service-manager.js:204-210 | With two queued requests and a failing first write, the drain loop as written never ends |
| Supervisor.DrainSpinsForever | modules/service-manager.js:206-209 | Once the drain reaches an undeliverable state with requests left, no number of iterations empties the queue |
| Supervisor.DrainDoneIsLoopExit | modules/service-manager.js:204-210 | When the drain ends, it ends with an empty queue after exactly one iteration per queued request |
| Supervisor.DrainGuarded | modules/service-manager.js:204-210 | The guarded drain never raises readiness or writes to the client, never grows the queue, and only appends to the child trace |
| Supervisor.DrainGuardedAgrees | modules/service-manager.js:204-210 | Whenever the loop as written terminates, the guarded drain reaches the same state |
| Supervisor.DrainGuardedEnds | modules/service-manager.js:204-210 | The guarded drain ends with an empty queue or an undeliverable child, and the requests it leaves are the unsent tail of the queue, in order |
| Supervisor.DrainDeliversInOrder | modules/service-manager.js:204-249 | While writes succeed, the drain sends every queued request in FIFO order and registers the callbacks oldest first, leaving the queue empty and the child ready |
| Supervisor.DrainStopsAtFailedWrite | modules/service-manager.js:204-249 | When the first k writes of a drain succeed and the next one throws, the guarded drain has sent exactly the first k requests in order and registered their callbacks, parks the failing request for resending behind a fresh unready child, and keeps the rest queued in order; the loop as written spins whenever a request remains behind the failing one |
| Supervisor.DeliverStep | modules/service-manager.js:224-231 | One successful drain step sends the head request and registers its callback, and changes nothing else |
| Supervisor.OnChildOutput | modules/service-manager.js:29-76 | Garbage, null and id-less output is ignored, and so is output whose id `String()` cannot print, because logging that id throws; a probe reply makes an unready child ready and drains the queue, and is never relayed; any other reply goes once to its registered callback, which is then removed, or else is relayed raw; readiness changes only on a probe reply |
| Supervisor.ToStringKeyedIdIsDropped | modules/service-manager.js:38 | A reply whose id is an object with its own `toString` member is neither routed nor relayed, and the state is unchanged |
| Supervisor.Poll | modules/service-manager.js:172-177 | A readiness poll resolves and removes its waiter exactly when the child is ready |
| Supervisor.Timeout | modules/service-manager.js:194-199 | Only spawning-branch waiters time out; the timeout removes the waiter and rejects exactly when the child is not ready |
| Callbacks.Spread | playwright-script-gen-mcp.js:499 | Spreading succeeds exactly on arrays and strings, and an array spreads to its own items |
| Callbacks.ChildTools | playwright-script-gen-mcp.js:486-493 | The child's tools are taken only when both `result` and `result.tools` are truthy, and are `[]` otherwise |
| Callbacks.MergeTools | playwright-script-gen-mcp.js:484-507 | The merged reply keeps every member of the child's reply except `result`, which becomes `{tools: childTools + [localTool]}`; it fails exactly when the spread throws |
| Callbacks.MergedToolsShape | playwright-script-gen-mcp.js:498-505 | The merged list is the child's tools in order followed by the local tool, so it holds one more copy of that tool than the child reported |
| Callbacks.Invoke | playwright-script-gen-mcp.js:469-518 | An error becomes a -32603 reply for the original id; `tools/list` replies are merged; other replies are relayed verbatim; the page URL changes only on a successful `browser/navigate` with a truthy `params.url`, and then to that URL |
| Callbacks.FailedReplyEchoesId | playwright-script-gen-mcp.js:473-479 | An error reply is an object carrying the request's own id and error code -32603 |
| Callbacks.ToolCallKeepsPage | playwright-script-gen-mcp.js:511-513 | A successful `tools/call` never moves the page URL, whichever tool it names |
| StepsLog.Load | modules/test-steps-manager.js:17-34 | A missing file, an unparsable file, a file holding `null` and an object whose `length` member `String()` cannot print (logging it throws inside the try) load as `[]`; any other content loads as parsed; the result is always the parsed content or `[]` |
| StepsLog.ToStringKeyedLengthLoadsEmpty | modules/test-steps-manager.js:23-26 | A file holding `{"length": {"toString": 0}}` loads as `[]` |
| StepsLog.New | modules/test-steps-manager.js:11-14 | A new manager holds the loaded list and an empty page URL, and an absent file gives an empty list |
| StepsLog.AddStep | modules/test-steps-manager.js:65-69 | Adding appends exactly the step, keeps the earlier steps and the page URL, and leaves a file that loads back as the new list |
| StepsLog.Clear | modules/test-steps-manager.js:47-57 | Clearing empties the list, writes `[]` only to a file that exists, and keeps the page URL |
| StepsLog.SetPageUrl | modules/test-steps-manager.js:72-74 | Setting the page URL changes neither the steps nor the file |
| StepsLog.PageUrlRoundTrip | modules/test-steps-manager.js:72-79 | Reading the page URL back after setting it gives the URL that was set |
| StepsLog.AddAllAppends | modules/test-steps-manager.js:65-69 | A sequence of additions appends the steps in order, and the file then loads as the whole list |
| StepsLog.RecordedStepsReadBack | modules/test-steps-manager.js:60-69 | Steps recorded from a fresh start are read back in order, by `getTestSteps` and by a manager rebuilt from the file |
| StepsLog.ClearThenReload | modules/test-steps-manager.js:47-57 | A manager rebuilt from the file after a clear starts empty |
| Gateway.ExtractAction | playwright-script-gen-mcp.js:68-121 | A listed method maps to its action type; the value is `params.url` for navigate, `params.text` for fill, `params.key` for press, `params.path` for screenshot, and `params.milliseconds` or 1000 for wait, and is absent for the other types; fill, click, text, get_elements, press and hover copy `params.selector`, and the other types carry no selector; any other method yields `params` unchanged |
| Gateway.ListedAreBrowserOperations | playwright-script-gen-mcp.js:124-128 | Every method the extractor maps passes the browser-operation test |
| Gateway.ToolsCallIsNotBrowserOperation | playwright-script-gen-mcp.js:124-128 | `tools/call` is not a browser operation |
| Gateway.ToolsCallIsNotListed | playwright-script-gen-mcp.js:458-460 | `tools/call` is not a method the extractor maps, so a recorded step is the request's `params` as they are |
| Gateway.BlankIffAllSpace | playwright-script-gen-mcp.js:536-540 | A line is skipped exactly when every character of it is ECMAScript white space |
| Gateway.LoadForGenerator | playwright-script-gen-mcp.js:25-42 | The generator sees any parsed content as it is, `null` included, and `[]` for a missing or unparsable file |
| Gateway.Generate | playwright-script-gen-mcp.js:410-448 | The generator adds exactly one client line and nothing else to the supervisor; a throwing emitter gives the -32700 reply and keeps the log; a returning one gives a reply for the request's id whose result is the emitter's fields plus the content block, and clears the log |
| Gateway.Forward | playwright-script-gen-mcp.js:456-521 | Exactly the `tools/call` requests for other tools are appended to the log, and the request goes to the router with a callback closed over its method, params and id |
| Gateway.HandleRequest | playwright-script-gen-mcp.js:404-533 | Unparsable input and `null` get one -32700 reply; the generator call stays local; with no child the request waits on a new start without being recorded; otherwise it is forwarded |
| Gateway.HandleLine | playwright-script-gen-mcp.js:536-540 | Blank lines leave the server unchanged; other lines are handled as requests |
| Gateway.Deliver | playwright-script-gen-mcp.js:507-515 | Running a routed callback writes at most its one reply line and updates only the page URL in the log |
| Gateway.Startup | playwright-script-gen-mcp.js:19-42 | At start-up the step list is empty whatever the file holds, a child is being spawned, and the boot start is the only waiter |
| GatewayProps.ReadyRisesOnlyOnProbe | modules/service-manager.js:40-44 | No event other than a child line whose id passes the probe test makes an unready server ready |
| GatewayProps.ResponsesFollowIds | modules/service-manager.js:60-70 | Two responses to distinct ids each reach their own callback, in either arrival order, and each callback fires once |
| GatewayProps.PrefixedClientIdIsSwallowed | modules/service-manager.js:40-58 | A client request with a `health_check_`-prefixed id is forwarded, but its reply is taken for a probe, never answered, and its callback stays registered |
| GatewayProps.RelayRoundTrip | playwright-script-gen-mcp.js:508-515 | A request forwarded to a ready child is answered with the child's response, exactly once, and its callback is then gone |
| GatewayProps.GeneratorStaysLocal | playwright-script-gen-mcp.js:410-448 | A generator call writes nothing to the child, queues and registers nothing, and adds one client line |
| GatewayProps.GeneratorSeesRecordedSteps | playwright-script-gen-mcp.js:422 | After a step is recorded, the generator loads exactly the recorded steps |
| GatewayProps.GeneratorAsWiredFails | playwright-script-gen-mcp.js:8-10 | With the missing export, every generator call gets the -32700 reply and the log is kept |
| GatewayProps.NavigateScenario | playwright-script-gen-mcp.js:456-521 | A navigate tool call before readiness is queued and recorded, sent on the probe reply, and answered once, and the page URL stays empty |
| GatewayProps.StartReordersRequests | playwright-script-gen-mcp.js:451-454 | Two requests sent while the child is starting reach the child in reverse order |
| GatewayProps.CrashScenario | modules/service-manager.js:85-103 | After a non-zero exit the server is not ready, has a restart pending and keeps its queue and callbacks; only a probe reply makes it ready again |
| ScriptGen.Header | modules/script-generator.js:17-94 | For a target URL that prints, the script head is 73 lines; only the browser line and the commented-out navigate line depend on the arguments, and a falsy URL falls back to `https://example.com` |
| ScriptGen.Finalize | modules/script-generator.js:96-112 | Finalising keeps the given lines and appends the 14 fixed footer lines, ending with `runAutomation();` |
| ScriptGen.Escape | modules/script-generator.js:138 | Escaping adds exactly one character per single quote and never starts with a bare quote |
| ScriptGen.StripEscape | modules/script-generator.js:138 | Removing the inserted backslashes gives the original value back |
| ScriptGen.EscapeReadsBack | modules/script-generator.js:156 | For a value without backslashes or line breaks, the generated single-quoted literal reads back as the value |
| ScriptGen.LoneBackslashUnterminated | modules/script-generator.js:156 | A value that is a lone backslash escapes the closing quote, so the generated literal never terminates |
| ScriptGen.HandleMcpFormat | modules/script-generator.js:183-192 | A tool call throws exactly when its name cannot be printed; otherwise it adds its `tools/call` line, with missing or falsy arguments as `{}`, plus a log line, and keeps the lines before it |
| ScriptGen.TypedLines | modules/script-generator.js:134-177 | The ten recognised types and browser operations with params add two lines; every other type adds one |
| ScriptGen.OtherLines | modules/script-generator.js:164-177 | An unrecognised type is replayed with its params when it is a browser operation that has them, and becomes one comment line otherwise |
| ScriptGen.AddStepToScript | modules/script-generator.js:118-180 | The builder throws exactly on a tool call whose name cannot be printed, a non-string type, a truthy non-string value for a type whose value is escaped, a selector that cannot be printed for a type that uses it, or a wait value that cannot be printed; otherwise it only appends; the MCP form wins over any `type` |
| ScriptGen.MissingValuePrintsEmpty | modules/script-generator.js:132 | A navigate action without a value replays as navigation to `''` |
| ScriptGen.NonObjectAddsNothing | modules/script-generator.js:119-122 | A non-object action leaves the lines unchanged |
| ScriptGen.NavigateUrlReadsBack | modules/script-generator.js:155-157 | A navigate line's URL literal reads back as the recorded URL when that URL holds no backslash or line break |
| ScriptGen.ToolCallWithoutArgumentsThrows | modules/script-generator.js:125 | A step with a name but no `arguments` and no `type` makes the builder throw |
| ScriptGen.ToStringKeyedNameThrows | modules/script-generator.js:188 | A tool call whose name is an object with its own `toString` member makes the builder throw |
| ScriptGen.ToStringKeyedSelectorThrows | modules/script-generator.js:135-136 | A click whose selector is an object with its own `toString` member makes the builder throw |
| ScriptGen.AddSteps | modules/script-generator.js:213-215 | The fold fails exactly when some action throws; otherwise it keeps the head lines and adds each action's lines |
| ScriptGen.GenerateNodeScript | modules/script-generator.js:198-241 | Generation throws exactly when the target URL cannot be printed or some action throws; a failed write gives the error record with a null file; otherwise it gives the success record with the step count and the target name, and writes the script |
| ScriptGen.ToolCallsThrowOnlyOnNames | modules/script-generator.js:125-127 | A list of MCP-form tool calls throws exactly when some call's name cannot be printed; the type/selector/value paths are never taken |
| ScriptGen.QuietListReturns | modules/script-generator.js:210-241 | Generation over an action array returns exactly when the target URL prints and no action throws |
| ScriptGen.NamedTargetSucceeds | modules/script-generator.js:202-204 | With a successful write, a non-empty string file name is reported back as the generated file |
| ScriptGen.ScriptShape | modules/script-generator.js:210-226 | The written script is the 73-line head, then as many lines as the actions add, then the 14-line footer |
| ScriptGen.NonArrayIsEmpty | modules/script-generator.js:206-208 | A non-array action list generates exactly what an empty list does |
| ScriptGen.Replay | modules/script-generator.js:183-192 | The reference replay of tool calls whose names print keeps the head lines and adds two lines per call |
| ScriptGen.AddStepsIsReplay | modules/script-generator.js:213-215 | On a list of tool calls whose names print, the generator's fold equals the reference replay |
| ScriptGen.ReplayLines | modules/script-generator.js:188 | In the reference replay, call i's `tools/call` line sits at offset 2i |
| ScriptGen.ToolCallsReplay | modules/script-generator.js:213-215 | Recorded tool calls whose names print replay as two lines each, in order, with call i's line at offset 2i |
| PyScript.Elements | start.py:93-96 | The loop can run only over a list of dicts, or an empty string or dict, and visits a list of dicts as it is |
| PyScript.Header | start.py:70-77 | The Python script head is 8 lines, and the last one opens the given URL |
| PyScript.ActionLines | start.py:100-133 | Each action adds one line for click, fill, wait and screenshot, two for text, get_elements and snapshot, and none for any other type |
| PyScript.Descriptions | start.py:93-138 | There is one step description per action |
| PyScript.AnyUnsupportedIffExists | start.py:134-136 | The error flag is set exactly when some action has an unsupported type |
| PyScript.AllActionLines | start.py:93-133 | The lines of a list of actions are each action's lines in action order, as many as the actions add together |
| PyScript.Build | start.py:93-138 | The loop flags exactly the lists with an unsupported action, gives the URL step followed by one description per action in order, collects the screenshot values in order, and adds exactly each action's lines in action order |
| PyScript.Call | start.py:58-153 | The call raises exactly when the argument is not a dict or its actions cannot be iterated as dicts; otherwise the status is error exactly when some action is unsupported, the steps are the URL step and one description per action, the file is `test-<stamp>.py`, and the script is exactly the 8 head lines, every action's lines in order, and the 4 footer lines |
| PyScript.MissingSelectorIsEmpty | start.py:97 | A click without a selector clicks `''` |
| PyScript.MissingTypeIsUnsupported | start.py:134-136 | An action without a type adds no lines and is described as an unsupported type `None` |
| PyScript.ScreenshotValuesAppend | start.py:112-115 | One more action adds its value to the screenshots when it is a screenshot, and nothing otherwise |
| PyScript.ScreenshotValuesConcat | start.py:93-115 | The screenshots of two runs of actions are those of the first followed by those of the second |
| PyScript.ScreenshotsCountShots | start.py:112-115 | There are never more screenshots than actions, and none when no action is a screenshot |

## Left out

- JSON text: `JSON.parse`, `JSON.stringify` and `json5` are not modelled. A client line arrives with its parse outcome, and `JSON.stringify` is a parameter of the builders.
- Numbers: a JSON number is an integer; floating point is not modelled.
- Logging: `log` and `Logger.log` are left out, and every log write (`fs.appendFileSync`, modules/script-generator.js:11) is assumed to succeed. A failing write would throw: inside the try at modules/test-steps-manager.js:23 it would make every load `[]`, and the log at modules/service-manager.js:32, outside the stdout handler's try, would escape the handler. Only the conversions the log lines perform are modelled, because their throws change behaviour.
- Timers: intervals and timeouts are counters of pending callbacks, with no notion of time.
- Chunk boundaries: each chunk of child stdout is taken to be one whole message.
- Write failures: writes to the steps file are taken to succeed. Their failures are only logged.
- Gateway.Reject: a rejected resend leaves the server as it was. In the source the `.then` at modules/service-manager.js:244-247 has no `.catch`, so the rejection is unhandled, and Node 15 and later ends the process. Process exit is not modelled.
- SIGINT handling (playwright-script-gen-mcp.js:543-558): left out, because it only cleans up and exits.
- `getReadyStatus` and `getMcpInstance` (modules/service-manager.js:266-273): left out, because they are plain getters.
- Module wiring: the `export` keyword at playwright-script-gen-mcp.js:185 stops the file from loading as a CommonJS module. The model assumes the file loads.
- The `spawn` import at playwright-script-gen-mcp.js:11-13 binds `undefined`, because modules/service-manager.js:290 exports only `PlaywrightServiceManager`. So every `spawn(...)` call at :190 would throw a TypeError. The model assumes a working `child_process.spawn`.
- Gateway steps file: the gateway's own `saveTestSteps` and `clearTestSteps` (playwright-script-gen-mcp.js:45-65) behave like the manager's, so the model reuses `StepsLog.AddStep` and `StepsLog.Clear`.
- StepsLog.New: requires the file to load as an array. The source builds a manager around any loaded value, whose next `push` would throw.
- Callbacks.Spread: a Dafny character is a Unicode scalar value, so a string spreads by code point, as `[...s]` does. A string holding a lone surrogate cannot be represented.
- PyScript: `str()` is a parameter, constrained only on strings, integers, `None` and booleans. The file write, the `MyImageGen` tool and the agent/WebUI set-up in start.py are left out.
- PyScript.Call: `int(time.time())` is the `stamp` parameter.
- ScriptGen.GenerateNodeScript: `Date.now()` is the `stamp` parameter. The directory creation and the write are reduced to an optional error message.
- ScriptGen.Replay: stated only for tool calls whose names print. `ScriptGen.ToolCallsThrowOnlyOnNames` covers the other tool calls, which throw.
- ScriptGen.AddStepsIsReplay: stated only for tool calls whose names print, as for `ScriptGen.Replay`.
- ScriptGen.ToolCallsReplay: stated only for tool calls whose names print, as for `ScriptGen.Replay`.
- ScriptGen.ReadLiteral: reads back the escapes used here. It gives None for `\x`, `\u`, octal escapes and line continuations rather than decoding them.
- Other scripts: run_generator.js, execute-all-scripts.js and the configuration files are not part of this model. The configuration values used (`ping`, `msedge`, `test`, the output directory) are constants.

## Findings

| source | as written | input that shows it | evidently intended | confidence | as-written member | corrected member |
|---|---|---|---|---|---|---|
| modules/service-manager.js:204-210 | `processPendingRequests` loops while the queue is non-empty and hands each request to `processPlaywrightRequest`. That puts a request back on the queue whenever the child is not ready. | A ready child, two queued requests, and a stdin write that throws. The first send drops readiness and spawns a new child. The second request is pushed back on every iteration, so the loop never ends and the event loop stalls. | Stop draining once the child is no longer deliverable, and leave the rest queued for the next probe reply. | not executed | Supervisor.DrainCanSpin | Supervisor.DrainGuardedEnds |

The rest of the model uses the corrected drain: the router's probe branch (`Supervisor.OnChildOutput`) calls `Supervisor.DrainGuarded`. `Supervisor.DrainGuardedAgrees` shows that this changes nothing wherever the loop as written terminates. `Supervisor.DrainStopsAtFailedWrite` covers every drain whose first k writes succeed and whose next write throws: the loop as written spins whenever a request remains behind the failing one, and the guarded drain stops there.

=== FILE: callbacks.dfy ===
/** The reply callback the request gateway registers for every forwarded
    request (playwright-script-gen-mcp.js:469-518). A callback is a closure over
    the request's `method`, `params` and `id`; invoking it writes one line to
    the client and may update the current page URL. */
module Callbacks {
  import opened Json

  const GeneratorToolName := "playwright_script_generator"
  const GeneratorToolDescription := "根据记录的操作，生成playwright mcp的操作回放脚本"

  /** The locally provided tool that tools/list advertises next to the child's tools. */
  const LocalTool: Json :=
    JObj(map["name" := JStr(GeneratorToolName),
             "description" := JStr(GeneratorToolDescription),
             "inputSchema" := JNull])

  const InternalErrorCode := -32603

  /** The closure built by handleRequest: what it captured of the request. */
  datatype Handler = Handler(rpcMethod: Field, params: Field, id: Field)

  /** The two ways a callback can be called: `callback(error)` or `callback(null, response)`. */
  datatype Arg = Failed(message: string) | Succeeded(response: Json)

  /** What one invocation does: the line written to the client (None when the
      callback threw before writing) and the current page URL afterwards. */
  datatype Effect = Effect(reply: Option<Json>, pageUrl: Json)

  function Chars(s: string): (r: seq<Json>)
    ensures |r| == |s|
    ensures forall i :: 0 <= i < |s| ==> r[i] == JStr([s[i]])
  {
    seq(|s|, i requires 0 <= i < |s| => JStr([s[i]]))
  }

  /** `[...v]`: arrays and strings are iterable; any other value makes the
      spread throw a TypeError. */
  function Spread(v: Json): (r: Option<seq<Json>>)
    ensures r.Some? <==> (v.JArr? || v.JStr?)
    ensures v.JArr? ==> r == Some(v.items)
  {
    match v
    case JArr(items) => Some(items)
    case JStr(s) => Some(Chars(s))
    case _ => None
  }

  /** The child's tool list as lines 486-493 read it: `[]` unless
      `response.result.tools` is truthy. */
  function ChildTools(response: Json): (r: Option<seq<Json>>)
    ensures !Truthy(Get(response, "result")) ==> r == Some([])
    ensures Truthy(Get(response, "result")) && !Truthy(Get(Get(response, "result").v, "tools")) ==> r == Some([])
    ensures Truthy(Get(response, "result")) && Truthy(Get(Get(response, "result").v, "tools"))
            ==> r == Spread(Get(Get(response, "result").v, "tools").v)
  {
    var result := Get(response, "result");
    if Truthy(result) && Truthy(Get(result.v, "tools")) then Spread(Get(result.v, "tools").v) else Some([])
  }

  function Count(xs: seq<Json>, x: Json): nat
  {
    if |xs| == 0 then 0 else (if xs[0] == x then 1 else 0) + Count(xs[1..], x)
  }

  lemma {:induction false} CountAppend(xs: seq<Json>, ys: seq<Json>, x: Json)
    ensures Count(xs + ys, x) == Count(xs, x) + Count(ys, x)
  {
    if |xs| == 0 {
      assert xs + ys == ys;
    } else {
      assert (xs + ys)[1..] == xs[1..] + ys;
      CountAppend(xs[1..], ys, x);
    }
  }

  /** The tools/list reply: the child's response with `result` replaced by
      `{tools: [...childTools, localTool]}`. */
  function MergeTools(response: Json): (r: Option<Json>)
    requires response.JObj?
    ensures r.Some? <==> ChildTools(response).Some?
    ensures r.Some? ==>
      && r.value.JObj?
      && (forall k :: k in response.fields && k != "result" ==> k in r.value.fields && r.value.fields[k] == response.fields[k])
      && (forall k :: k in r.value.fields ==> k in response.fields || k == "result")
      && "result" in r.value.fields
      && r.value.fields["result"] == JObj(map["tools" := JArr(ChildTools(response).value + [LocalTool])])
  {
    match ChildTools(response)
    case None => None
    case Some(tools) =>
      Some(JObj(response.fields["result" := JObj(map["tools" := JArr(tools + [LocalTool])])]))
  }

  /** The merged list holds the child's tools in order, then exactly one more
      copy of the local tool than the child reported. */
  lemma MergedToolsShape(response: Json)
    requires response.JObj?
    requires ChildTools(response).Some?
    ensures var tools := ChildTools(response).value;
            var merged := MergeTools(response).value.fields["result"].fields["tools"].items;
            && |merged| == |tools| + 1
            && merged[..|tools|] == tools
            && merged[|tools|] == LocalTool
            && Count(merged, LocalTool) == Count(tools, LocalTool) + 1
  {
    var tools := ChildTools(response).value;
    CountAppend(tools, [LocalTool], LocalTool);
    assert Count([LocalTool], LocalTool) == 1;
  }

  /** The error envelope of lines 473-477. */
  function InternalError(id: Field, message: string): Json
  {
    JObj(With(map["jsonrpc" := JStr("2.0"),
                  "error" := JObj(map["code" := JNum(InternalErrorCode),
                                      "message" := JStr("处理请求时出错: " + message)])],
              "id", id))
  }

  predicate IsMethod(f: Field, name: string)
  {
    f == Val(JStr(name))
  }

  /** True when a successful reply to this request moves the current page:
      the method is literally `browser/navigate` and `params.url` is truthy. */
  predicate Navigates(h: Handler)
  {
    IsMethod(h.rpcMethod, "browser/navigate") && Truthy(h.params) && Truthy(Get(h.params.v, "url"))
  }

  /** Runs the callback for `h` with `arg`, starting from page URL `pageUrl`. */
  function Invoke(h: Handler, arg: Arg, pageUrl: Json): (e: Effect)
    requires arg.Succeeded? ==> arg.response.JObj?
    // an error always produces the -32603 envelope for the original id
    ensures arg.Failed? ==> e == Effect(Some(InternalError(h.id, arg.message)), pageUrl)
    // tools/list replies carry the merged list, or nothing when the spread threw
    ensures arg.Succeeded? && IsMethod(h.rpcMethod, "tools/list") ==>
      e.reply == MergeTools(arg.response) && e.pageUrl == pageUrl
    // any other method relays the response verbatim
    ensures arg.Succeeded? && !IsMethod(h.rpcMethod, "tools/list") ==> e.reply == Some(arg.response)
    // the page URL moves only on a successful navigate with a truthy url
    ensures e.pageUrl != pageUrl ==> arg.Succeeded? && Navigates(h) && e.pageUrl == Get(h.params.v, "url").v
    ensures arg.Succeeded? && Navigates(h) ==> e.pageUrl == Get(h.params.v, "url").v
  {
    match arg
    case Failed(message) => Effect(Some(InternalError(h.id, message)), pageUrl)
    case Succeeded(response) =>
      if IsMethod(h.rpcMethod, "tools/list") then
        Effect(MergeTools(response), pageUrl)
      else
        var page := if Navigates(h) then Get(h.params.v, "url").v else pageUrl;
        Effect(Some(response), page)
  }

  /** An error reply echoes the request's id and carries code -32603. */
  lemma FailedReplyEchoesId(h: Handler, message: string, pageUrl: Json)
    ensures var r := Invoke(h, Failed(message), pageUrl).reply.value;
            && r.JObj?
            && Get(r, "id") == h.id
            && Get(r, "error").Val?
            && Get(Get(r, "error").v, "code") == Val(JNum(-32603))
  {
  }

  /** A `tools/call` request never moves the page, whatever tool it names:
      the URL update tests the JSON-RPC method, not the tool name. */
  lemma ToolCallKeepsPage(h: Handler, response: Json, pageUrl: Json)
    requires IsMethod(h.rpcMethod, "tools/call")
    requires response.JObj?
    ensures Invoke(h, Succeeded(response), pageUrl).pageUrl == pageUrl
  {
  }
}

=== FILE: gateway.dfy ===
/** The request gateway of playwright-script-gen-mcp.js: the stdin line
    listener, `handleRequest`, its pure helpers, and the event loop that ties
    client lines, child output and timers to the supervisor. */
module Gateway {
  import opened Json
  import opened Callbacks
  import opened Supervisor
  import opened Methods
  import StepsLog

  const ParseErrorCode := -32700
  const OutputDir := "E:\\Codes\\auto-test-mcp\\generated-scripts"
  const DefaultFileName := "test"

  /** The whole server: the supervisor record and the action log with the
      current page URL (module-level `testSteps` and `currentPageUrl`). */
  datatype Server = Server(sup: Sup, log: StepsLog.Manager)

  /** What the script emitter did: returned a result object, or threw. */
  datatype EmitOutcome = Emitted(fields: map<string, Json>) | Threw

  /** The script emitter, called with the current page URL, the action list
      loaded from the steps file, and the target file name. */
  type Emitter = (Json, Json, string) -> EmitOutcome

  /** The environment's side of one event: which writes to the child's
      stdin succeed, and the `Date.now()` text used in generated names. */
  datatype Env = Env(writes: Writes, stamp: string)

  // ---------------------------------------------------------------------
  // Pure helpers

  /** The action type `extractActionFromMethod` gives each method it maps,
      and "" for every other method. */
  function ActionType(m: string): string
  {
    if m == "browser/navigate" then "navigate"
    else if m == "page/fill" || m == "element/fill" then "fill"
    else if m == "page/click" || m == "element/click" then "click"
    else if m == "page/wait" then "wait"
    else if m == "page/screenshot" then "screenshot"
    else if m == "page/text" || m == "element/text" then "text"
    else if m == "page/elements" || m == "element/query" then "get_elements"
    else if m == "page/content" then "snapshot"
    else if m == "page/press" || m == "element/press" then "press"
    else if m == "page/hover" || m == "element/hover" then "hover"
    else ""
  }

  predicate Listed(m: Field)
  {
    m.Val? && m.v.JStr? && ActionType(m.v.s) != ""
  }

  /** `{type, selector, value}` with undefined members left out. */
  function Action(kind: string, selector: Field, value: Field): (r: Json)
    ensures Get(r, "type") == Val(JStr(kind))
    ensures Get(r, "selector") == selector && Get(r, "value") == value
  {
    JObj(With(With(map["type" := JStr(kind)], "selector", selector), "value", value))
  }

  /** The `selector` an action of type `kind` copies from the params. */
  function ActionSelector(kind: string, p: Json): Field
  {
    if kind in {"fill", "click", "text", "get_elements", "press", "hover"} then Get(p, "selector") else Undefined
  }

  /** The `value` an action of type `kind` takes from the params. */
  function ActionValue(kind: string, p: Json): Field
  {
    if kind == "navigate" then Get(p, "url")
    else if kind == "fill" then Get(p, "text")
    else if kind == "wait" then (if Truthy(Get(p, "milliseconds")) then Get(p, "milliseconds") else Val(JNum(1000)))
    else if kind == "screenshot" then Get(p, "path")
    else if kind == "press" then Get(p, "key")
    else Undefined
  }

  /** `extractActionFromMethod` (playwright-script-gen-mcp.js:69-121). Reading
      a member of null or undefined params throws, so listed methods need them. */
  function ExtractAction(m: Field, params: Field): (r: Field)
    requires Listed(m) ==> params.Val? && !params.v.JNull?
    ensures !Listed(m) ==> r == params
    ensures Listed(m) ==> r.Val? && Get(r.v, "type") == Val(JStr(ActionType(m.v.s)))
    ensures m == Val(JStr("page/wait")) ==>
      Get(r.v, "value") == (if Truthy(Get(params.v, "milliseconds")) then Get(params.v, "milliseconds") else Val(JNum(1000)))
    ensures m == Val(JStr("browser/navigate")) ==> Get(r.v, "value") == Get(params.v, "url")
    // fill, press and screenshot take their value from text, key and path
    ensures Listed(m) && ActionType(m.v.s) == "fill" ==> Get(r.v, "value") == Get(params.v, "text")
    ensures Listed(m) && ActionType(m.v.s) == "press" ==> Get(r.v, "value") == Get(params.v, "key")
    ensures Listed(m) && ActionType(m.v.s) == "screenshot" ==> Get(r.v, "value") == Get(params.v, "path")
    // the actions on an element copy its selector; the page-wide ones carry none
    ensures Listed(m) && ActionType(m.v.s) in {"fill", "click", "text", "get_elements", "press", "hover"} ==>
      Get(r.v, "selector") == Get(params.v, "selector")
    ensures Listed(m) && ActionType(m.v.s) in {"navigate", "wait", "screenshot", "snapshot"} ==>
      Get(r.v, "selector") == Undefined
    // the actions that only read or point carry no value
    ensures Listed(m) && ActionType(m.v.s) in {"click", "text", "get_elements", "snapshot", "hover"} ==>
      Get(r.v, "value") == Undefined
  {
    if !Listed(m) then params
    else
      var kind := ActionType(m.v.s);
      Val(Action(kind, ActionSelector(kind, params.v), ActionValue(kind, params.v)))
  }

  /** Every method `extractActionFromMethod` maps is a browser operation, and
      `tools/call`, the only method handleRequest records, is not. */
  lemma ListedAreBrowserOperations(m: string)
    requires ActionType(m) != ""
    ensures IsBrowserOperation(m)
  {
    if m == "browser/navigate" {
      assert m[..8] == "browser/";
    } else if m in {"page/fill", "page/click", "page/wait", "page/screenshot", "page/text",
                    "page/elements", "page/content", "page/press", "page/hover"} {
      assert m[..5] == "page/";
    } else {
      assert m[..8] == "element/";
    }
  }

  /** `tools/call`, the only method handleRequest records, is not a browser operation. */
  lemma ToolsCallIsNotBrowserOperation()
    ensures !IsBrowserOperation("tools/call")
  {
    var t := "tools/call";
    assert t[..8][0] == 't';
    assert t[..5][0] == 't';
  }

  /** `tools/call` is not one of the methods `extractActionFromMethod` maps,
      so a recorded step is the request's `params` as they are. */
  lemma ToolsCallIsNotListed()
    ensures !Listed(Val(JStr("tools/call")))
  {
    if ActionType("tools/call") != "" {
      ListedAreBrowserOperations("tools/call");
      ToolsCallIsNotBrowserOperation();
    }
  }

  /** ECMAScript WhiteSpace and LineTerminator code points, which `trim` removes. */
  predicate IsSpace(c: char)
  {
    c == '\t' || c == '\n' || c == '\U{000B}' || c == '\U{000C}' || c == '\r' || c == ' '
    || c == '\U{00A0}' || c == '\U{1680}' || ('\U{2000}' <= c <= '\U{200A}')
    || c == '\U{2028}' || c == '\U{2029}' || c == '\U{202F}' || c == '\U{205F}'
    || c == '\U{3000}' || c == '\U{FEFF}'
  }

  function TrimStart(s: string): (r: string)
    ensures |r| <= |s| && r == s[|s| - |r|..]
    ensures |r| > 0 ==> !IsSpace(r[0])
    ensures forall i :: 0 <= i < |s| - |r| ==> IsSpace(s[i])
  {
    if |s| > 0 && IsSpace(s[0]) then TrimStart(s[1..]) else s
  }

  function TrimEnd(s: string): (r: string)
    ensures |r| <= |s| && r == s[..|r|]
    ensures |r| > 0 ==> !IsSpace(r[|r| - 1])
    ensures forall i :: |r| <= i < |s| ==> IsSpace(s[i])
  {
    if |s| > 0 && IsSpace(s[|s| - 1]) then TrimEnd(s[..|s| - 1]) else s
  }

  /** `String.prototype.trim`. */
  function Trim(s: string): string
  {
    TrimEnd(TrimStart(s))
  }

  /** A line is skipped exactly when every character of it is white space. */
  lemma BlankIffAllSpace(s: string)
    ensures Trim(s) == "" <==> forall i :: 0 <= i < |s| ==> IsSpace(s[i])
  {
    var t := TrimStart(s);
    if Trim(s) == "" {
      assert |t| == 0;
    } else {
      var r := Trim(s);
      assert r[0] == t[0];
      assert !IsSpace(s[|s| - |t|]);
    }
  }

  /** The reply to an unreadable request: `{jsonrpc, id: null, error: {code: -32700}}`. */
  const ParseErrorReply: Json :=
    JObj(map["jsonrpc" := JStr("2.0"), "id" := JNull,
             "error" := JObj(map["code" := JNum(ParseErrorCode), "message" := JStr("Parse error")])])

  /** The gateway's own `loadTestSteps` as the generator path calls it
      (lines 25-42): unlike the manager's copy it returns a parsed `null`
      as it is. */
  function LoadForGenerator(f: StepsLog.StepsFile): (r: Json)
    ensures f.Holds? && f.content.Some? ==> r == f.content.value
    ensures !(f.Holds? && f.content.Some?) ==> r == JArr([])
  {
    if f.Holds? && f.content.Some? then f.content.value else JArr([])
  }

  /** The generated file's name (line 413). */
  function ScriptFileName(stamp: string): string
  {
    OutputDir + "/" + DefaultFileName + "-" + stamp + ".js"
  }

  /** The generator reply's `content` block (lines 425-427). */
  function ContentBlock(fileName: string): Json
  {
    JArr([JObj(map["type" := JStr("text"), "text" := JStr("脚本保存在文件地址：  " + fileName)])])
  }

  predicate IsGeneratorCall(m: Field, params: Field)
  {
    IsMethod(m, "tools/call") && Truthy(params) && Get(params.v, "name") == Val(JStr(GeneratorToolName))
  }

  /** Whether handleRequest records the request in the action log (line 458). */
  predicate IsRecorded(m: Field, params: Field)
  {
    IsMethod(m, "tools/call") && Truthy(params) && Get(params.v, "name") != Val(JStr(GeneratorToolName))
  }

  // ---------------------------------------------------------------------
  // Transitions

  function Reply(srv: Server, body: Json): (r: Server)
    ensures r.sup == srv.sup.(toClient := srv.sup.toClient + [Msg(body)]) && r.log == srv.log
  {
    srv.(sup := srv.sup.(toClient := srv.sup.toClient + [Msg(body)]))
  }

  /** The local script-generation path (lines 410-448). A throwing emitter
      (a failing mkdir included) reaches the catch and the parse-error reply;
      the log is then not cleared. */
  function Generate(srv: Server, id: Field, stamp: string, emit: Emitter): (r: Server)
    ensures var out := emit(srv.log.pageUrl, LoadForGenerator(srv.log.file), ScriptFileName(stamp));
      && r.sup.(toClient := srv.sup.toClient) == srv.sup
      && |r.sup.toClient| == |srv.sup.toClient| + 1
      && r.sup.toClient[..|srv.sup.toClient|] == srv.sup.toClient
      && (out.Threw? ==> r.sup.toClient[|srv.sup.toClient|] == Msg(ParseErrorReply) && r.log == srv.log)
      && (out.Emitted? ==>
            && r.log == StepsLog.Clear(srv.log)
            && r.sup.toClient[|srv.sup.toClient|].Msg?
            && Get(r.sup.toClient[|srv.sup.toClient|].body, "id") == id
            && Get(r.sup.toClient[|srv.sup.toClient|].body, "result")
               == Val(JObj(out.fields["content" := ContentBlock(ScriptFileName(stamp))])))
  {
    var fileName := ScriptFileName(stamp);
    match emit(srv.log.pageUrl, LoadForGenerator(srv.log.file), fileName)
    case Threw => Reply(srv, ParseErrorReply)
    case Emitted(fields) =>
      var result := JObj(fields["content" := ContentBlock(fileName)]);
      var body := JObj(With(map["jsonrpc" := JStr("2.0"), "result" := result], "id", id));
      Reply(srv, body).(log := StepsLog.Clear(srv.log))
  }

  /** The part of handleRequest after the child is known to exist (lines
      456-521): record a `tools/call` step, then hand the request, with its
      reply callback, to the supervisor. */
  function Forward(srv: Server, j: Json, writeOk: bool): (r: Server)
    ensures var m := Get(j, "method"); var params := Get(j, "params");
      && (IsRecorded(m, params) ==> r.log == StepsLog.AddStep(srv.log, params.v))
      && (!IsRecorded(m, params) ==> r.log == srv.log)
    ensures var e := Entry(j, Get(j, "id"), Some(Handler(Get(j, "method"), Get(j, "params"), Get(j, "id"))));
      r.sup == Process(srv.sup, e, writeOk)
  {
    var m := Get(j, "method");
    var params := Get(j, "params");
    var id := Get(j, "id");
    var log := if IsRecorded(m, params) then ToolsCallIsNotListed(); StepsLog.AddStep(srv.log, ExtractAction(m, params).v) else srv.log;
    Server(Process(srv.sup, Entry(j, id, Some(Handler(m, params, id))), writeOk), log)
  }

  /** `handleRequest` on a line that is not blank (lines 404-533). */
  function HandleRequest(srv: Server, parsed: Option<Json>, env: Env, emit: Emitter): (r: Server)
    // parse failures, including destructuring a parsed null, get one -32700 reply and nothing else
    ensures parsed.None? || parsed.value.JNull? ==> r == Reply(srv, ParseErrorReply)
    // the generator tool is handled locally and never reaches the child
    ensures parsed.Some? && !parsed.value.JNull?
            && IsGeneratorCall(Get(parsed.value, "method"), Get(parsed.value, "params")) ==>
      r == Generate(srv, Get(parsed.value, "id"), env.stamp, emit)
    // with no child, the request waits for a fresh start before being recorded
    ensures parsed.Some? && !parsed.value.JNull?
            && !IsGeneratorCall(Get(parsed.value, "method"), Get(parsed.value, "params"))
            && !srv.sup.hasInstance ==>
      r.log == srv.log && r.sup == Connect(srv.sup).(waiters := srv.sup.waiters + [Waiter(Resume(parsed.value), true)])
    ensures parsed.Some? && !parsed.value.JNull?
            && !IsGeneratorCall(Get(parsed.value, "method"), Get(parsed.value, "params"))
            && srv.sup.hasInstance ==>
      r == Forward(srv, parsed.value, env.writes(|srv.sup.toChild|))
  {
    match parsed
    case None => Reply(srv, ParseErrorReply)
    case Some(j) =>
      if j.JNull? then Reply(srv, ParseErrorReply)
      else if IsGeneratorCall(Get(j, "method"), Get(j, "params")) then
        Generate(srv, Get(j, "id"), env.stamp, emit)
      else if !srv.sup.hasInstance then
        srv.(sup := Start(srv.sup, Resume(j)).state)
      else
        Forward(srv, j, env.writes(|srv.sup.toChild|))
  }

  /** The stdin line listener (lines 536-540): blank lines are skipped. */
  function HandleLine(srv: Server, text: string, parsed: Option<Json>, env: Env, emit: Emitter): (r: Server)
    ensures Trim(text) == "" ==> r == srv
    ensures Trim(text) != "" ==> r == HandleRequest(srv, parsed, env, emit)
  {
    if Trim(text) == "" then srv else HandleRequest(srv, parsed, env, emit)
  }

  /** Runs a callback the router picked, writing its reply and updating the page URL. */
  function Deliver(srv: Server, inv: Option<Invocation>): (r: Server)
    requires inv.Some? ==> inv.value.response.JObj?
    ensures inv.None? ==> r == srv
    ensures inv.Some? ==>
      var e := Invoke(inv.value.handler, Succeeded(inv.value.response), srv.log.pageUrl);
      && r.log == StepsLog.SetPageUrl(srv.log, e.pageUrl)
      && r.sup.(toClient := srv.sup.toClient) == srv.sup
      && r.sup.toClient == srv.sup.toClient + (if e.reply.Some? then [Msg(e.reply.value)] else [])
  {
    match inv
    case None => srv
    case Some(Invocation(h, response)) =>
      var e := Invoke(h, Succeeded(response), srv.log.pageUrl);
      var out := if e.reply.Some? then [Msg(e.reply.value)] else [];
      Server(srv.sup.(toClient := srv.sup.toClient + out), StepsLog.SetPageUrl(srv.log, e.pageUrl))
  }

  /** A resolved start promise runs its continuation. */
  function Resolve(srv: Server, c: Continuation, writeOk: bool): Server
  {
    match c
    case Boot => srv
    case Resume(j) => Forward(srv, j, writeOk)
    case Resend(e) => srv.(sup := Send(srv.sup, e, writeOk))
  }

  /** A rejected start promise: the suspended request gets the catch-all
      parse-error reply. A rejected resend has no handler: it is an unhandled
      rejection, which ends the process under Node 15 and later; the model
      leaves the server as it was instead. */
  function Reject(srv: Server, c: Continuation): Server
  {
    match c
    case Boot => srv
    case Resume(_) => Reply(srv, ParseErrorReply)
    case Resend(_) => srv
  }

  /** The server right after start-up: an empty log (see README on why the
      first load always yields `[]`) and `initializeService` already asking
      the supervisor to start. */
  function Startup(f: StepsLog.StepsFile): (srv: Server)
    ensures srv.log.steps == [] && srv.log.pageUrl == JStr("")
    ensures srv.sup.hasInstance && !srv.sup.ready && srv.sup.firstProbes == 1
    ensures srv.sup.waiters == [Waiter(Boot, true)] && srv.sup.queue == []
  {
    Server(Start(Supervisor.Init(), Boot).state, StepsLog.Manager([], JStr(""), f))
  }

  datatype Event =
    | ClientLine(text: string, parsed: Option<Json>)
    | ChildLine(out: ChildOutput)
    | ChildClose(code: Option<int>)
    | ChildError
    | FirstProbeTimer(stdinPresent: bool)
    | HealthTimer(stdinPresent: bool)
    | RestartTimer
    | ReadyPoll(k: nat)
    | StartTimeout(k: nat)

  /** One turn of the event loop. */
  function Step(srv: Server, ev: Event, env: Env, emit: Emitter): Server
  {
    match ev
    case ClientLine(text, parsed) => HandleLine(srv, text, parsed, env, emit)
    case ChildLine(out) =>
      var routed := OnChildOutput(srv.sup, out, env.writes);
      Deliver(srv.(sup := routed.state), routed.invoke)
    case ChildClose(code) => srv.(sup := OnClose(srv.sup, code))
    case ChildError => srv.(sup := OnError(srv.sup))
    case FirstProbeTimer(stdinPresent) => srv.(sup := FirstProbeFires(srv.sup, stdinPresent, env.writes(|srv.sup.toChild|), env.stamp))
    case HealthTimer(stdinPresent) => srv.(sup := IntervalFires(srv.sup, stdinPresent, env.writes(|srv.sup.toChild|), env.stamp))
    case RestartTimer => srv.(sup := RestartFires(srv.sup))
    case ReadyPoll(k) =>
      var p := Poll(srv.sup, k);
      if p.now.Some? then Resolve(srv.(sup := p.state), p.now.value, env.writes(|srv.sup.toChild|)) else srv.(sup := p.state)
    case StartTimeout(k) =>
      var t := Timeout(srv.sup, k);
      if t.now.Some? then Reject(srv.(sup := t.state), t.now.value) else srv.(sup := t.state)
  }
}

=== FILE: gateway_props.dfy ===
/** Properties of the whole server: how the gateway, the router and the
    supervisor act together over sequences of events. */
module GatewayProps {
  import opened Json
  import opened Callbacks
  import opened Supervisor
  import opened Gateway
  import StepsLog

  /** Readiness rises only on a probe response: no other event, and no other
      child message, can make a not-ready server ready. */
  lemma ReadyRisesOnlyOnProbe(srv: Server, ev: Event, env: Env, emit: Emitter)
    requires !srv.sup.ready
    requires Step(srv, ev, env, emit).sup.ready
    ensures ev.ChildLine? && ev.out.parsed.Some? && IsProbeId(Get(ev.out.parsed.value, "id"))
  {
    match ev
    case ClientLine(text, parsed) =>
      ClientLineKeepsReady(srv, text, parsed, env, emit);
    case ChildLine(out) =>
      var routed := OnChildOutput(srv.sup, out, env.writes);
      assert Step(srv, ev, env, emit).sup.ready == routed.state.ready;
    case StartTimeout(k) =>
      TimeoutKeepsReady(srv, k);
    case _ =>
  }

  /** A client line never makes the child ready. */
  lemma ClientLineKeepsReady(srv: Server, text: string, parsed: Option<Json>, env: Env, emit: Emitter)
    requires !srv.sup.ready
    ensures !HandleLine(srv, text, parsed, env, emit).sup.ready
  {
    if Trim(text) != "" && parsed.Some? && !parsed.value.JNull?
       && IsGeneratorCall(Get(parsed.value, "method"), Get(parsed.value, "params")) {
      var r := Generate(srv, Get(parsed.value, "id"), env.stamp, emit);
      assert r.sup.ready == r.sup.(toClient := srv.sup.toClient).ready;
    }
  }

  /** A startup timeout never makes the child ready. */
  lemma TimeoutKeepsReady(srv: Server, k: nat)
    requires !srv.sup.ready
    ensures var t := Timeout(srv.sup, k);
            !(if t.now.Some? then Reject(srv.(sup := t.state), t.now.value) else srv.(sup := t.state)).sup.ready
  {
  }

  /** Two requests forwarded with distinct ids get their responses routed to
      their own callbacks, in whichever order the responses arrive. */
  lemma ResponsesFollowIds(s: Sup, a: Json, b: Json, ha: Handler, hb: Handler,
                           ra: Json, rb: Json, rawA: string, rawB: string, writes: Writes)
    requires Primitive(a) && Primitive(b) && a != b
    requires !a.JNull? && !b.JNull?
    requires !IsProbeId(Val(a)) && !IsProbeId(Val(b))
    requires s.callbacks == map[Val(a) := ha, Val(b) := hb]
    requires ra.JObj? && Get(ra, "id") == Val(a)
    requires rb.JObj? && Get(rb, "id") == Val(b)
    ensures var first := OnChildOutput(s, ChildOutput(rawB, Some(rb)), writes);
            var second := OnChildOutput(first.state, ChildOutput(rawA, Some(ra)), writes);
            && first.invoke == Some(Invocation(hb, rb))
            && second.invoke == Some(Invocation(ha, ra))
            && second.state.callbacks == map[]
            && second.state.toClient == s.toClient
  {
    var first := OnChildOutput(s, ChildOutput(rawB, Some(rb)), writes);
    assert first.state.callbacks == map[Val(a) := ha];
  }

  /** A client request whose id carries the probe prefix is forwarded and its
      callback registered, but the child's reply is taken for a probe: it is
      neither relayed nor routed, and the callback stays registered. */
  lemma PrefixedClientIdIsSwallowed(srv: Server, j: Json, response: Json, raw: string, suffix: string)
    requires srv.sup.ready && srv.sup.hasInstance
    requires j.JObj? && Get(j, "id") == Val(JStr(ProbePrefix + suffix))
    requires !IsGeneratorCall(Get(j, "method"), Get(j, "params"))
    requires response.JObj? && Get(response, "id") == Val(JStr(ProbePrefix + suffix))
    ensures var env := Env(_ => true, "0");
            var emit: Emitter := (_, _, _) => Threw;
            var sent := HandleRequest(srv, Some(j), env, emit);
            var answered := Step(sent, ChildLine(ChildOutput(raw, Some(response))), env, emit);
            && sent.sup.toChild == srv.sup.toChild + [j]
            && Val(JStr(ProbePrefix + suffix)) in sent.sup.callbacks
            && answered == sent
  {
    PrefixedClientIdIsProbe(suffix);
  }

  /** A request forwarded to a ready child is answered by relaying the
      child's response verbatim, once, after which no callback remains for
      its id (methods other than tools/list). */
  lemma RelayRoundTrip(srv: Server, j: Json, response: Json, raw: string, writes: Writes)
    requires srv.sup.ready && srv.sup.hasInstance
    requires j.JObj? && Get(j, "id").Val? && Primitive(Get(j, "id").v) && !Get(j, "id").v.JNull?
    requires !IsProbeId(Get(j, "id"))
    requires !IsGeneratorCall(Get(j, "method"), Get(j, "params"))
    requires !IsMethod(Get(j, "method"), "tools/list")
    requires response.JObj? && Get(response, "id") == Get(j, "id")
    ensures var env := Env(_ => true, "0");
            var emit: Emitter := (_, _, _) => Threw;
            var sent := HandleRequest(srv, Some(j), env, emit);
            var answered := Step(sent, ChildLine(ChildOutput(raw, Some(response))), Env(writes, "0"), emit);
            && sent.sup.toChild == srv.sup.toChild + [j]
            && answered.sup.toClient == srv.sup.toClient + [Msg(response)]
            && Get(j, "id") !in answered.sup.callbacks
  {
  }

  /** The generator tool never reaches the child: nothing is written to it,
      nothing is queued or registered, and the supervisor is otherwise as it was. */
  lemma GeneratorStaysLocal(srv: Server, j: Json, env: Env, emit: Emitter)
    requires !j.JNull?
    requires IsGeneratorCall(Get(j, "method"), Get(j, "params"))
    ensures var r := HandleRequest(srv, Some(j), env, emit);
            && r.sup.toChild == srv.sup.toChild
            && r.sup.queue == srv.sup.queue
            && r.sup.callbacks == srv.sup.callbacks
            && r.sup.ready == srv.sup.ready && r.sup.hasInstance == srv.sup.hasInstance
            && |r.sup.toClient| == |srv.sup.toClient| + 1
  {
  }

  /** When the steps file holds the saved in-memory log, as it does after any
      recorded step, the emitter sees exactly the recorded steps. */
  lemma GeneratorSeesRecordedSteps(m: StepsLog.Manager, step: Json)
    ensures var m1 := StepsLog.AddStep(m, step);
            LoadForGenerator(m1.file) == JArr(m1.steps)
  {
  }

  // ---------------------------------------------------------------------
  // The emitter

  /** The emitter as the gateway is wired: `generatePythonScript` is not among
      the script generator's exports, so calling it throws a TypeError. */
  function AsWired(): Emitter
  {
    (_, _, _) => Threw
  }

  /** As wired, every generator call gets the -32700 reply and the step log is kept. */
  lemma GeneratorAsWiredFails(srv: Server, id: Field, stamp: string)
    ensures var r := Generate(srv, id, stamp, AsWired());
            && r.sup.toClient == srv.sup.toClient + [Msg(ParseErrorReply)]
            && r.log == srv.log
  {
  }

  // ---------------------------------------------------------------------
  // Scenarios

  const NavParams: Json :=
    JObj(map["name" := JStr("browser_navigate"),
             "arguments" := JObj(map["url" := JStr("https://example.com")])])

  const NavRequest: Json :=
    JObj(map["jsonrpc" := JStr("2.0"), "method" := JStr("tools/call"),
             "params" := NavParams, "id" := JStr("1")])

  const ProbeReply: Json := JObj(map["jsonrpc" := JStr("2.0"), "id" := JStr(ProbePrefix + "123"), "result" := JObj(map[])])

  const NavReply: Json := JObj(map["jsonrpc" := JStr("2.0"), "id" := JStr("1"), "result" := JObj(map[])])

  const Env0 := Env(_ => true, "0")
  const NavId: Field := Val(JStr("1"))
  const NavHandler := Handler(Val(JStr("tools/call")), Val(NavParams), NavId)
  const NavEntry := Entry(NavRequest, NavId, Some(NavHandler))

  /** The states the navigate scenario passes through. */
  const Nav0 := Server(Init().(hasInstance := true), StepsLog.Manager([], JStr(""), StepsLog.Absent))
  const Nav1 := Server(Nav0.sup.(queue := [NavEntry]), StepsLog.AddStep(Nav0.log, NavParams))
  const Nav2 := Server(Nav1.sup.(ready := true, timerArmed := true, queue := [], toChild := [NavRequest],
                                 callbacks := map[NavId := NavHandler]), Nav1.log)
  const Nav3 := Server(Nav2.sup.(callbacks := map[], toClient := [Msg(NavReply)]), Nav2.log)

  /** A line that starts with a non-space character is not skipped. */
  lemma LineIsNotBlank(c: char, rest: string)
    requires !IsSpace(c)
    ensures Trim([c] + rest) != ""
  {
    BlankIffAllSpace([c] + rest);
    assert ([c] + rest)[0] == c;
  }

  lemma NavForwarded()
    ensures Forward(Nav0, NavRequest, true) == Nav1
  {
    assert Get(NavRequest, "method") == Val(JStr("tools/call"));
    assert Get(NavRequest, "params") == Val(NavParams) && Get(NavRequest, "id") == NavId;
    assert Get(NavParams, "name") == Val(JStr("browser_navigate"));
    ToolsCallIsNotListed();
    assert IsRecorded(Val(JStr("tools/call")), Val(NavParams));
  }

  lemma NavHandled()
    ensures HandleRequest(Nav0, Some(NavRequest), Env0, AsWired()) == Nav1
  {
    assert Get(NavRequest, "method") == Val(JStr("tools/call"));
    assert Get(NavRequest, "params") == Val(NavParams);
    assert Get(NavParams, "name") == Val(JStr("browser_navigate"));
    NavForwarded();
  }

  lemma NavQueued()
    ensures Step(Nav0, ClientLine("{...}", Some(NavRequest)), Env0, AsWired()) == Nav1
  {
    LineIsNotBlank('{', "...}");
    assert "{...}" == ['{'] + "...}";
    NavHandled();
  }

  lemma NavDrained()
    ensures Step(Nav1, ChildLine(ChildOutput("{...}", Some(ProbeReply))), Env0, AsWired()) == Nav2
  {
    PrefixedClientIdIsProbe("123");
    var d := Nav1.sup.(ready := true, timerArmed := true);
    assert Get(ProbeReply, "id") == Val(JStr(ProbePrefix + "123"));
    assert DrainStep(d, Env0.writes) == Nav2.sup;
    assert DrainGuarded(Nav2.sup, Env0.writes) == Nav2.sup;
  }

  lemma NavRelayed()
    ensures Step(Nav2, ChildLine(ChildOutput("{...}", Some(NavReply))), Env0, AsWired()) == Nav3
  {
    assert Get(NavReply, "id") == NavId;
    assert Text(JStr("1"))[0] == '1';
    assert !Navigates(NavHandler);
  }

  /** A navigate tool call before readiness is queued and recorded; a probe
      reply sends it and registers its callback; the child's answer reaches
      the client. The page URL stays empty: the update at line 511 needs the
      method to be `browser/navigate`, and here it is `tools/call`. */
  lemma NavigateScenario()
    ensures var s1 := Step(Nav0, ClientLine("{...}", Some(NavRequest)), Env0, AsWired());
            var s2 := Step(s1, ChildLine(ChildOutput("{...}", Some(ProbeReply))), Env0, AsWired());
            var s3 := Step(s2, ChildLine(ChildOutput("{...}", Some(NavReply))), Env0, AsWired());
            && |s1.sup.queue| == 1 && s1.sup.toChild == [] && s1.log.steps == [NavParams]
            && s2.sup.ready && s2.sup.queue == [] && s2.sup.toChild == [NavRequest]
            && NavId in s2.sup.callbacks
            && s3.sup.toClient == [Msg(NavReply)]
            && s3.sup.callbacks == map[]
            && s3.log.pageUrl == JStr("")
  {
    NavQueued();
    NavDrained();
    NavRelayed();
  }

  const ClickA: Json := JObj(map["method" := JStr("page/click"), "id" := JNum(1)])
  const ClickB: Json := JObj(map["method" := JStr("page/click"), "id" := JNum(2)])

  const ClickMethod: Field := Val(JStr("page/click"))
  const HandlerA := Handler(ClickMethod, Undefined, Val(JNum(1)))
  const HandlerB := Handler(ClickMethod, Undefined, Val(JNum(2)))
  const EntryB := Entry(ClickB, Val(JNum(2)), Some(HandlerB))

  /** The states the start-order scenario passes through. */
  const Ord0 := Server(Init(), StepsLog.Manager([], JStr(""), StepsLog.Absent))
  const Ord1 := Server(Connect(Init()).(waiters := [Waiter(Resume(ClickA), true)]), Ord0.log)
  const Ord2 := Server(Ord1.sup.(queue := [EntryB]), Ord0.log)
  const Ord3 := Server(Ord2.sup.(ready := true, timerArmed := true, queue := [], toChild := [ClickB],
                                 callbacks := map[Val(JNum(2)) := HandlerB]), Ord0.log)
  const Ord4 := Server(Ord3.sup.(waiters := [], toChild := [ClickB, ClickA],
                                 callbacks := map[Val(JNum(2)) := HandlerB, Val(JNum(1)) := HandlerA]), Ord0.log)

  lemma ClickFields()
    ensures Get(ClickA, "method") == ClickMethod && Get(ClickA, "params") == Undefined && Get(ClickA, "id") == Val(JNum(1))
    ensures Get(ClickB, "method") == ClickMethod && Get(ClickB, "params") == Undefined && Get(ClickB, "id") == Val(JNum(2))
    ensures !IsGeneratorCall(ClickMethod, Undefined) && !IsRecorded(ClickMethod, Undefined)
  {
  }

  lemma OrdStarted()
    ensures HandleRequest(Ord0, Some(ClickA), Env0, AsWired()) == Ord1
  {
    ClickFields();
  }

  lemma OrdQueued()
    ensures HandleRequest(Ord1, Some(ClickB), Env0, AsWired()) == Ord2
  {
    ClickFields();
    assert Forward(Ord1, ClickB, true) == Ord2;
  }

  lemma OrdDrained()
    ensures Step(Ord2, ChildLine(ChildOutput("p", Some(ProbeReply))), Env0, AsWired()) == Ord3
  {
    PrefixedClientIdIsProbe("123");
    assert Get(ProbeReply, "id") == Val(JStr(ProbePrefix + "123"));
    var d := Ord2.sup.(ready := true, timerArmed := true);
    assert DrainStep(d, Env0.writes) == Ord3.sup;
    assert DrainGuarded(Ord3.sup, Env0.writes) == Ord3.sup;
  }

  lemma OrdResumed()
    ensures Step(Ord3, ReadyPoll(0), Env0, AsWired()) == Ord4
  {
    ClickFields();
    assert Poll(Ord3.sup, 0) == Started(Ord3.sup.(waiters := []), Some(Resume(ClickA)));
    assert Forward(Ord3.(sup := Ord3.sup.(waiters := [])), ClickA, true) == Ord4;
  }

  /** The request that triggers a fresh start waits on the start promise,
      while a request arriving meanwhile finds the child and is queued; the
      probe reply drains the queue first, so the child receives the two
      requests in the reverse of their arrival order. */
  lemma StartReordersRequests()
    ensures var s1 := Step(Ord0, ClientLine("a", Some(ClickA)), Env0, AsWired());
            var s2 := Step(s1, ClientLine("b", Some(ClickB)), Env0, AsWired());
            var s3 := Step(s2, ChildLine(ChildOutput("p", Some(ProbeReply))), Env0, AsWired());
            var s4 := Step(s3, ReadyPoll(0), Env0, AsWired());
            && s1.sup.toChild == [] && s2.sup.toChild == []
            && s3.sup.toChild == [ClickB]
            && s4.sup.toChild == [ClickB, ClickA]
  {
    LineIsNotBlank('a', "");
    assert "a" == ['a'] + "";
    LineIsNotBlank('b', "");
    assert "b" == ['b'] + "";
    OrdStarted();
    OrdQueued();
    OrdDrained();
    OrdResumed();
  }

  /** A non-zero exit leaves the server not ready with a restart pending, and
      only a probe reply makes it ready again. */
  lemma CrashScenario(srv: Server, env: Env, emit: Emitter, ev: Event)
    ensures var crashed := Step(srv, ChildClose(Some(1)), env, emit);
            && !crashed.sup.ready && !crashed.sup.hasInstance
            && crashed.sup.restarts == srv.sup.restarts + 1
            && crashed.sup.callbacks == srv.sup.callbacks
            && crashed.sup.queue == srv.sup.queue
            && (Step(crashed, ev, env, emit).sup.ready ==>
                  ev.ChildLine? && ev.out.parsed.Some? && IsProbeId(Get(ev.out.parsed.value, "id")))
  {
    var crashed := Step(srv, ChildClose(Some(1)), env, emit);
    if Step(crashed, ev, env, emit).sup.ready {
      ReadyRisesOnlyOnProbe(crashed, ev, env, emit);
    }
  }
}

=== FILE: json.dfy ===
/** JSON values as the JavaScript code sees them after JSON.parse, together with
    the few pieces of JavaScript semantics the routing code depends on: property
    reads that may be undefined, truthiness, and String() conversion. */
module Json {

  datatype Option<+T> = None | Some(value: T)

  /** A parsed JSON value. Numbers are restricted to integers. */
  datatype Json =
    | JNull
    | JBool(b: bool)
    | JNum(n: int)
    | JStr(s: string)
    | JArr(items: seq<Json>)
    | JObj(fields: map<string, Json>)

  /** The result of reading a property: `undefined` or a JSON value. */
  datatype Field = Undefined | Val(v: Json)

  /** `j.key` in JavaScript: only objects carry named properties. */
  function Get(j: Json, key: string): (f: Field)
    ensures f.Val? <==> (j.JObj? && key in j.fields)
  {
    if j.JObj? && key in j.fields then Val(j.fields[key]) else Undefined
  }

  /** The object literal `{...fields, key: f}`: a property whose value is
      `undefined` is dropped, as JSON.stringify would drop it. */
  function With(fields: map<string, Json>, key: string, f: Field): (r: map<string, Json>)
    ensures f.Val? ==> key in r && r[key] == f.v
    ensures forall k :: k in r && k != key ==> k in fields && r[k] == fields[k]
    ensures forall k :: k in fields && k != key ==> k in r
  {
    match f
    case Undefined => fields - {key}
    case Val(v) => fields[key := v]
  }

  /** JavaScript truthiness of a property value. */
  predicate Truthy(f: Field)
  {
    match f
    case Undefined => false
    case Val(v) =>
      match v
      case JNull => false
      case JBool(b) => b
      case JNum(n) => n != 0
      case JStr(s) => s != ""
      case JArr(_) => true
      case JObj(_) => true
  }

  /** Values a JavaScript `Map` compares by value rather than by identity. */
  predicate Primitive(j: Json)
  {
    j.JNull? || j.JBool? || j.JNum? || j.JStr?
  }

  predicate IsString(f: Field)
  {
    f.Val? && f.v.JStr?
  }

  predicate StartsWith(s: string, prefix: string)
  {
    |prefix| <= |s| && s[..|prefix|] == prefix
  }

  predicate IsDigit(c: char)
  {
    '0' <= c <= '9'
  }

  /** Decimal digits of a natural number, most significant first. */
  function Digits(n: nat): (r: string)
    ensures |r| > 0
    ensures forall i :: 0 <= i < |r| ==> IsDigit(r[i])
  {
    var d := ['0' + (n % 10) as char];
    if n < 10 then d else Digits(n / 10) + d
  }

  /** `String(n)` for an integer. */
  function NumText(n: int): (r: string)
    ensures |r| > 0 && (IsDigit(r[0]) || r[0] == '-')
  {
    if n < 0 then "-" + Digits(-n) else Digits(n)
  }

  function Join(parts: seq<string>, sep: string): string
  {
    if |parts| == 0 then ""
    else if |parts| == 1 then parts[0]
    else parts[0] + sep + Join(parts[1..], sep)
  }

  /** Whether `String(v)` in JavaScript returns rather than throws. A parsed
      object takes `toString` and `valueOf` from its prototype unless it has
      an own `toString` member; that member is plain data, not a function, and
      the conversion then throws a TypeError (an own `valueOf` alone does no
      harm, as the inherited `toString` is tried first). An array converts
      each element in turn, so it throws when any element does. */
  predicate Printable(j: Json)
    decreases j
  {
    match j
    case JObj(fields) => "toString" !in fields
    case JArr(items) => forall i :: 0 <= i < |items| ==> Printable(items[i])
    case _ => true
  }

  /** `String(v)` in JavaScript, for a value that is `Printable`. Arrays print
      as their elements joined by commas, with `null` elements printed as the
      empty string; objects print as "[object Object]". On a value that is not
      `Printable` the result is meaningless: every caller models the throw
      first. */
  function Text(j: Json): string
    decreases j
  {
    match j
    case JNull => "null"
    case JBool(b) => if b then "true" else "false"
    case JNum(n) => NumText(n)
    case JStr(s) => s
    case JArr(items) =>
      Join(seq(|items|, i requires 0 <= i < |items| => if items[i].JNull? then "" else Text(items[i])), ",")
    case JObj(_) => "[object Object]"
  }

  /** `String(f)` for a property value that may be undefined. */
  function FieldText(f: Field): string
  {
    match f
    case Undefined => "undefined"
    case Val(v) => Text(v)
  }

  /** `f || dflt` for a string default. */
  function OrText(f: Field, dflt: string): Json
  {
    if Truthy(f) then f.v else JStr(dflt)
  }

  /** Concatenation regroups freely. */
  lemma AppendAssoc<T>(a: seq<T>, b: seq<T>, c: seq<T>)
    ensures (a + b) + c == a + (b + c)
  {
  }
}

=== FILE: methods.dfy ===
/** The JSON-RPC method names the gateway and the script generator both
    classify. */
module Methods {
  import opened Json

  /** `isBrowserOperation` (playwright-script-gen-mcp.js:124-128), the same
      prefix test the script generator applies to a step's `type`
      (modules/script-generator.js:164). */
  predicate IsBrowserOperation(m: string)
  {
    StartsWith(m, "browser/") || StartsWith(m, "page/") || StartsWith(m, "element/")
  }
}

=== FILE: script_generator.dfy ===
/** The Node.js replay-script builder of modules/script-generator.js:
    `ScriptTemplate` (the fixed head and tail of the script), `ActionHandler`
    (the lines each recorded action adds) and `ScriptGenerator.generateNodeScript`
    (assembly and the result record). `JSON.stringify` is left abstract and
    passed in; the file write is reduced to its outcome. */
module ScriptGen {
  import opened Json
  import opened Methods

  const Browser := "msedge"
  const DefaultUrl := "https://example.com"
  const DefaultFileName := "test"

  /** `JSON.stringify`, taken as a parameter. */
  type Stringify = Json -> string

  // ---------------------------------------------------------------------
  // Template

  /** The fixed lines of the script head before the browser line (script-generator.js:19-27). */
  const HeadStart: seq<string> := [
      "// 生成的 Node.js 自动化测试脚本 - 通过 MCP 协议调用 Playwright 服务",
      "const { spawn } = require('child_process');",
      "const readline = require('readline');",
      "",
      "async function runAutomation() {",
      "  console.log('启动 Playwright MCP 自动化测试');",
      "",
      "  // 启动 Playwright MCP 子进程",
      "  const npxCmd = process.platform === 'win32' ? 'npx.cmd' : 'npx';"
    ]

  /** The fixed lines between the browser line and the navigate line (lines 29-89). */
  const HeadMiddle: seq<string> := [
      "    stdio: ['pipe', 'pipe', 'pipe'],",
      "    shell: true",
      "  });",
      "",
      "  // 存储响应的 Promise 队列",
      "  const responsePromises = new Map();",
      "",
      "  // 监听 MCP 输出",
      "  mcpProcess.stdout.on('data', (data) => {",
      "    const output = data.toString().trim();",
      "    console.log('on data  output----->', output)",
      "    if (output) {",
      "      try {",
      "        const response = JSON.parse(output);",
      "        if (response.id && responsePromises.has(response.id)) {",
      "          const { resolve, reject } = responsePromises.get(response.id);",
      "          responsePromises.delete(response.id);",
      "          if (response.error) {",
      "            reject(new Error(`MCP Error: ${response.error.message}`));",
      "          } else {",
      "            resolve(response);",
      "          }",
      "        }",
      "      } catch (e) {",
      "        console.error('解析 MCP 响应失败:', e);",
      "      }",
      "    }",
      "  });",
      "",
      "  // 发送请求到 MCP 服务的函数",
      "  const sendRequest = (method, params) => {",
      "    return new Promise((resolve, reject) => {",
      "      const id = `req_${Date.now()}_${Math.random()}`;",
      "      const request = {",
      "        jsonrpc: '2.0',",
      "        method,",
      "        params,",
      "        id",
      "      };",
      "      responsePromises.set(id, { resolve, reject });",
      "      mcpProcess.stdin.write(JSON.stringify(request) + '\\n');",
      "      // 设置超时",
      "      setTimeout(() => {",
      "        if (responsePromises.has(id)) {",
      "          responsePromises.delete(id);",
      "          reject(new Error('MCP Request Timeout'));",
      "        }",
      "      }, 30000);",
      "    });",
      "  };",
      "",
      "  try {",
      "    // 初始化 MCP 服务",
      "    await sendRequest('initialize', {",
      "      protocolVersion: '2024-11-05',",
      "      clientInfo: { name: 'mcphost', version: '0.1.0' },",
      "      capabilities: {}",
      "    });",
      "    console.log('MCP 服务初始化完成');",
      "",
      "    // 导航到目标 URL"
    ]

  function BrowserLine(browser: string): string
  {
    "  const mcpProcess = spawn(npxCmd, ['@playwright/mcp@latest', '--browser', '" + browser + "'], {"
  }

  /** `url || 'https://example.com'`, the value line 90 concatenates; the
      concatenation throws when it cannot be printed. */
  function Target(url: Json): Json
  {
    OrText(Val(url), DefaultUrl)
  }

  /** The commented-out navigate line (line 90). */
  function TargetLine(url: Json): string
  {
    "    // await sendRequest('browser/navigate', { url: '" + Text(Target(url)) + "' });"
  }

  /** `initializeTestScript` (lines 17-94): 73 lines, of which only the
      browser line and the commented-out navigate line depend on the arguments.
      It returns only for a target that prints; `GenerateNodeScript` models
      the throw. */
  function Header(url: Json, browser: string): (r: seq<string>)
    requires Printable(Target(url))
    ensures |r| == 73
    ensures r[..|HeadStart|] == HeadStart && r[|HeadStart|] == BrowserLine(browser)
    ensures r[|HeadStart| + 1..|HeadStart| + 1 + |HeadMiddle|] == HeadMiddle
    ensures r[|r| - 2] == TargetLine(url) && r[|r| - 1] == "    // console.log('已导航到目标页面');"
    ensures !Truthy(Val(url)) ==> r[|r| - 2] == "    // await sendRequest('browser/navigate', { url: '" + DefaultUrl + "' });"
  {
    var tail := [TargetLine(url), "    // console.log('已导航到目标页面');"];
    Slices(HeadStart, BrowserLine(browser), HeadMiddle, tail);
    HeadStart + [BrowserLine(browser)] + HeadMiddle + tail
  }

  /** Where the parts of `a + [b] + c + d` sit. */
  lemma Slices<T>(a: seq<T>, b: T, c: seq<T>, d: seq<T>)
    ensures var s := a + [b] + c + d;
            && |s| == |a| + 1 + |c| + |d|
            && s[..|a|] == a && s[|a|] == b
            && s[|a| + 1..|a| + 1 + |c|] == c
            && s[|a| + 1 + |c|..] == d
  {
    var s := a + [b] + c + d;
    assert s[..|a|] == a;
    assert s[|a| + 1..|a| + 1 + |c|] == c;
    assert s[|a| + 1 + |c|..] == d;
  }

  const FooterLines: seq<string> := [
      "    console.log('自动化测试执行完成');",
      "  } catch (error) {",
      "    console.error('自动化测试失败:', error.message);",
      "    process.exit(1); // 测试失败退出码",
      "  } finally {",
      "    // 关闭 MCP 进程",
      "    if (!mcpProcess.killed) {",
      "      mcpProcess.kill();",
      "    }",
      "  }",
      "}",
      "",
      "// 执行自动化测试",
      "runAutomation();"
    ]

  /** `finalizeTestScript` (lines 96-112): 14 fixed lines after the given ones. */
  function Finalize(lines: seq<string>): (r: seq<string>)
    ensures |r| == |lines| + 14
    ensures r[..|lines|] == lines
    ensures r[|r| - 1] == "runAutomation();"
    ensures r[|lines|..] == FooterLines
  {
    lines + FooterLines
  }

  // ---------------------------------------------------------------------
  // Quote escaping

  function QuoteCount(s: string): nat
  {
    if |s| == 0 then 0 else (if s[0] == '\'' then 1 else 0) + QuoteCount(s[1..])
  }

  /** `value.replace(/'/g, "\\'")`: a backslash before every single quote. */
  function Escape(s: string): (r: string)
    ensures |r| == |s| + QuoteCount(s)
    ensures |r| > 0 ==> r[0] != '\''
  {
    if |s| == 0 then ""
    else (if s[0] == '\'' then "\\'" else [s[0]]) + Escape(s[1..])
  }

  /** Removes the backslash in front of each quote, reading left to right. */
  function Strip(t: string): string
  {
    if |t| == 0 then ""
    else if |t| >= 2 && t[0] == '\\' && t[1] == '\'' then "'" + Strip(t[2..])
    else [t[0]] + Strip(t[1..])
  }

  /** Escaping adds nothing but the backslashes: removing them gives the value back. */
  lemma {:induction false} StripEscape(s: string)
    ensures Strip(Escape(s)) == s
  {
    if |s| > 0 {
      StripEscape(s[1..]);
      var rest := Escape(s[1..]);
      if s[0] == '\'' {
        assert Escape(s) == "\\'" + rest;
        assert Escape(s)[2..] == rest;
      } else {
        assert Escape(s) == [s[0]] + rest;
        assert Escape(s)[1..] == rest;
        if s[0] == '\\' && |rest| > 0 {
          assert rest[0] != '\'';
        }
      }
    }
  }

  /** A string literal body read by a JavaScript parser up to the closing quote. */
  datatype Lit = Lit(value: string, rest: string)

  /** The character a backslash escape stands for. Escapes this reader does
      not cover (octal, `\x`, `\u`, line continuations) give None. */
  function EscapeValue(c: char): Option<char>
  {
    if c == 'n' then Some('\n') else if c == 't' then Some('\t') else if c == 'r' then Some('\r')
    else if c == 'b' then Some('\U{0008}') else if c == 'f' then Some('\U{000C}') else if c == 'v' then Some('\U{000B}')
    else if IsDigit(c) || c == 'x' || c == 'u' || c == '\n' || c == '\r' then None
    else Some(c)
  }

  function Prepend(c: char, r: Option<Lit>): Option<Lit>
  {
    if r.Some? then Some(Lit([c] + r.value.value, r.value.rest)) else None
  }

  /** Reads the body of a single-quoted JavaScript string literal; None when
      the literal is unterminated or holds a raw line break. */
  function ReadLiteral(t: string): Option<Lit>
    decreases |t|
  {
    if |t| == 0 then None
    else if t[0] == '\'' then Some(Lit("", t[1..]))
    else if t[0] == '\n' || t[0] == '\r' then None
    else if t[0] == '\\' then
      if |t| < 2 then None
      else
        var c := EscapeValue(t[1]);
        if c.Some? then Prepend(c.value, ReadLiteral(t[2..])) else None
    else Prepend(t[0], ReadLiteral(t[1..]))
  }

  predicate Plain(s: string)
  {
    forall i :: 0 <= i < |s| ==> s[i] != '\\' && s[i] != '\n' && s[i] != '\r'
  }

  /** For a value without backslashes or line breaks, the generated literal
      `'<escaped>'` reads back as the value. */
  lemma {:induction false} EscapeReadsBack(s: string, rest: string)
    requires Plain(s)
    ensures ReadLiteral(Escape(s) + "'" + rest) == Some(Lit(s, rest))
  {
    if |s| == 0 {
      assert Escape(s) + "'" + rest == "'" + rest;
    } else {
      assert Plain(s[1..]) by {
        forall i | 0 <= i < |s[1..]| ensures s[1..][i] != '\\' && s[1..][i] != '\n' && s[1..][i] != '\r' {
          assert s[1..][i] == s[i + 1];
        }
      }
      EscapeReadsBack(s[1..], rest);
      var e := Escape(s[1..]);
      var tail := e + "'" + rest;
      var head := if s[0] == '\'' then "\\'" else [s[0]];
      assert Escape(s) == head + e;
      AppendAssoc(head, e, "'");
      AppendAssoc(head, e + "'", rest);
      assert Escape(s) + "'" + rest == head + tail;
      if s[0] == '\'' {
        var t := "\\'" + tail;
        assert t[0] == '\\' && t[1] == '\'' && t[2..] == tail;
        assert EscapeValue('\'') == Some('\'');
        assert ReadLiteral(t) == Prepend('\'', ReadLiteral(tail));
        assert [s[0]] + s[1..] == s;
      } else {
        var t := [s[0]] + tail;
        assert t[0] == s[0] && t[1..] == tail;
        assert s[0] != '\\' && s[0] != '\n' && s[0] != '\r';
        assert ReadLiteral(t) == Prepend(s[0], ReadLiteral(tail));
        assert [s[0]] + s[1..] == s;
      }
    }
  }

  /** Backslashes are not escaped: a value that is a single backslash turns
      the closing quote into an escaped quote, and the literal never ends. */
  lemma LoneBackslashUnterminated()
    ensures ReadLiteral(Escape("\\") + "' });") == None
  {
    assert Escape("\\") == "\\";
    assert ReadLiteral("") == None;
    assert ReadLiteral(";") == Prepend(';', ReadLiteral(""));
    assert ReadLiteral(");") == Prepend(')', ReadLiteral(";"));
    assert ReadLiteral("});") == Prepend('}', ReadLiteral(");"));
    assert ReadLiteral(" });") == Prepend(' ', ReadLiteral("});"));
    assert EscapeValue('\'') == Some('\'');
    var t := "\\' });";
    assert t[0] == '\\' && t[1] == '\'' && t[2..] == " });";
    assert ReadLiteral(t) == Prepend('\'', ReadLiteral(" });"));
    assert Escape("\\") + "' });" == t;
  }

  // ---------------------------------------------------------------------
  // Actions

  /** The ten action types with their own pair of lines. */
  const Recognised: set<string> :=
    {"click", "fill", "wait", "screenshot", "text", "get_elements", "snapshot", "navigate", "press", "hover"}

  /** The types whose `value` goes through `.replace`, which only strings have. */
  const Escaped: set<string> := {"fill", "screenshot", "navigate", "press"}

  /** `action && typeof action === 'object'` for a JSON value. */
  predicate IsObject(a: Json)
  {
    a.JObj? || a.JArr?
  }

  /** The MCP tool-call form of line 125: a truthy `name` and a defined `arguments`. */
  predicate IsToolCall(a: Json)
  {
    Truthy(Get(a, "name")) && Get(a, "arguments").Val?
  }

  /** A tool call whose name prints: the form the builder replays without throwing. */
  predicate Replayable(a: Json)
  {
    IsToolCall(a) && Printable(Get(a, "name").v)
  }

  /** The types whose lines concatenate `selector || ''`. */
  const Selecting: set<string> := {"click", "fill", "text", "get_elements", "press", "hover"}

  /** When `addStepToScript` throws. A tool call throws only when its `name`
      cannot be printed (line 188). Otherwise a non-string `type` reaches
      `.startsWith`, a truthy non-string `value` reaches `.replace`, or a
      concatenated `selector || ''` (or, for wait, `value || ''`) cannot be
      printed. */
  predicate Throws(a: Json)
  {
    && IsObject(a)
    && if IsToolCall(a) then !Printable(Get(a, "name").v)
       else
         || !IsString(Get(a, "type"))
         || (Get(a, "type").v.s in Escaped && Truthy(Get(a, "value")) && !Get(a, "value").v.JStr?)
         || (Get(a, "type").v.s in Selecting && !Printable(OrText(Get(a, "selector"), "")))
         || (Get(a, "type").v.s == "wait" && !Printable(OrText(Get(a, "value"), "")))
  }

  /** How many lines an action that does not throw adds. */
  function Appended(a: Json): nat
  {
    if !IsObject(a) then 0
    else if IsToolCall(a) then 2
    else if IsString(Get(a, "type"))
            && (Get(a, "type").v.s in Recognised
                || (IsBrowserOperation(Get(a, "type").v.s) && Truthy(Get(a, "params")))) then 2
    else 1
  }

  /** The first line of the MCP form (line 188). */
  function ToolCallLine(name: Json, args: Json, enc: Stringify): string
  {
    "    await sendRequest('tools/call', { name: '" + Text(name) + "', arguments: " + enc(args) + " });"
  }

  /** `handleMCPFormat` (lines 183-192): missing or falsy arguments become
      `{}`; None when concatenating the name throws. */
  function HandleMcpFormat(lines: seq<string>, a: Json, enc: Stringify): (r: Option<seq<string>>)
    requires IsToolCall(a)
    ensures r.None? <==> !Printable(Get(a, "name").v)
    ensures r.Some? ==> |r.value| == |lines| + 2 && r.value[..|lines|] == lines
    ensures r.Some? ==>
      r.value[|lines|] == ToolCallLine(Get(a, "name").v, if Truthy(Get(a, "arguments")) then Get(a, "arguments").v else JObj(map[]), enc)
  {
    var name := Get(a, "name").v;
    var args := if Truthy(Get(a, "arguments")) then Get(a, "arguments").v else JObj(map[]);
    if !Printable(name) then None
    else Some(lines + [ToolCallLine(name, args, enc), "    console.log('执行工具调用: " + Text(name) + "');"])
  }

  /** The lines of the type/selector/value form (lines 134-177). `text` is
      `String(value)` and `escaped` the escaped value, used by the types in
      `Escaped`, whose value is then a string. */
  function TypedLines(kind: string, selector: string, text: string, escaped: string, params: Field, enc: Stringify): (r: seq<string>)
    ensures |r| == if kind in Recognised || (IsBrowserOperation(kind) && Truthy(params)) then 2 else 1
  {
    if kind in Recognised then [FirstLine(kind, selector, text, escaped), SecondLine(kind, selector, text, escaped)]
    else OtherLines(kind, params, enc)
  }

  /** The request line of each of the ten recognised types (lines 134-163). */
  function FirstLine(kind: string, selector: string, text: string, escaped: string): string
  {
    if kind == "click" then "    await sendRequest('page/click', { selector: '" + selector + "' });"
    else if kind == "fill" then "    await sendRequest('page/fill', { selector: '" + selector + "', text: '" + escaped + "' });"
    else if kind == "wait" then "    await new Promise(resolve => setTimeout(resolve, " + text + "));"
    else if kind == "screenshot" then "    await sendRequest('page/screenshot', { path: '" + escaped + "' });"
    else if kind == "text" then "    const textResult = await sendRequest('page/text', { selector: '" + selector + "' });"
    else if kind == "get_elements" then "    const elementsResult = await sendRequest('page/elements', { selector: '" + selector + "' });"
    else if kind == "snapshot" then "    const snapshotResult = await sendRequest('page/content', {});"
    else if kind == "navigate" then "    await sendRequest('browser/navigate', { url: '" + escaped + "' });"
    else if kind == "press" then "    await sendRequest('page/press', { selector: '" + selector + "', key: '" + escaped + "' });"
    else "    await sendRequest('page/hover', { selector: '" + selector + "' });"
  }

  /** The log line that follows it. */
  function SecondLine(kind: string, selector: string, text: string, escaped: string): string
  {
    if kind == "click" then "    console.log('点击元素: " + selector + "');"
    else if kind == "fill" then "    console.log('填充元素: " + selector + " 为 " + escaped + "');"
    else if kind == "wait" then "    console.log('等待 " + text + " 毫秒');"
    else if kind == "screenshot" then "    console.log('截图保存到: " + escaped + "');"
    else if kind == "text" then "    console.log('元素文本: ' + textResult.result);"
    else if kind == "get_elements" then "    console.log('找到元素数量: ' + elementsResult.result.length);"
    else if kind == "snapshot" then "    console.log('获取页面快照，长度: ' + snapshotResult.result.length);"
    else if kind == "navigate" then "    console.log('导航到: " + escaped + "');"
    else if kind == "press" then "    console.log('按键操作: " + selector + " 按下 " + escaped + "');"
    else "    console.log('悬停操作: " + selector + "');"
  }

  /** Any other type (lines 164-177): a generic browser operation is replayed
      with its `params` if it has them; everything else becomes a comment. */
  function OtherLines(kind: string, params: Field, enc: Stringify): (r: seq<string>)
    ensures |r| == if IsBrowserOperation(kind) && Truthy(params) then 2 else 1
  {
    if IsBrowserOperation(kind) then
      if Truthy(params) then
        ["    await sendRequest('" + kind + "', " + enc(params.v) + ");",
         "    console.log('执行操作: " + kind + "');"]
      else ["    // 未处理的操作: " + kind]
    else ["    // 未支持的操作类型: " + kind]
  }

  /** `addStepToScript` (lines 118-180); None when it throws. */
  function AddStepToScript(lines: seq<string>, a: Json, enc: Stringify): (r: Option<seq<string>>)
    ensures r.None? <==> Throws(a)
    ensures r.Some? ==> |r.value| == |lines| + Appended(a) && r.value[..|lines|] == lines
    // the MCP form wins over any `type`
    ensures IsToolCall(a) ==> r == HandleMcpFormat(lines, a, enc)
  {
    if !IsObject(a) then Some(lines)
    else if IsToolCall(a) then HandleMcpFormat(lines, a, enc)
    else
      var t := Get(a, "type");
      var selector := Text(OrText(Get(a, "selector"), ""));
      var value := OrText(Get(a, "value"), "");
      if !IsString(t) then None
      else if t.v.s in Escaped && !value.JStr? then None
      else if t.v.s in Selecting && !Printable(OrText(Get(a, "selector"), "")) then None
      else if t.v.s == "wait" && !Printable(value) then None
      else
        var escaped := if value.JStr? then Escape(value.s) else "";
        Some(lines + TypedLines(t.v.s, selector, Text(value), escaped, Get(a, "params"), enc))
  }

  /** A missing or empty value prints as `''`. */
  lemma MissingValuePrintsEmpty(lines: seq<string>, a: Json, enc: Stringify)
    requires a.JObj? && !IsToolCall(a)
    requires Get(a, "type") == Val(JStr("navigate")) && !Truthy(Get(a, "value"))
    ensures AddStepToScript(lines, a, enc)
         == Some(lines + ["    await sendRequest('browser/navigate', { url: '' });", "    console.log('导航到: ');"])
  {
    assert Get(a, "type").v.s == "navigate";
    assert OrText(Get(a, "value"), "") == JStr("");
    assert Escape("") == "";
    assert "navigate" in Recognised && "navigate" in Escaped;
    var selector := Text(OrText(Get(a, "selector"), ""));
    assert FirstLine("navigate", selector, "", "") == "    await sendRequest('browser/navigate', { url: '' });";
    assert SecondLine("navigate", selector, "", "") == "    console.log('导航到: ');";
  }

  /** A non-object action adds nothing. */
  lemma NonObjectAddsNothing(lines: seq<string>, a: Json, enc: Stringify)
    requires !IsObject(a)
    ensures AddStepToScript(lines, a, enc) == Some(lines)
  {
  }

  /** A navigate action's URL literal reads back as the recorded value when
      that value holds no backslash or line break. */
  lemma NavigateUrlReadsBack(lines: seq<string>, a: Json, url: string, enc: Stringify)
    requires a.JObj? && !IsToolCall(a)
    requires Get(a, "type") == Val(JStr("navigate")) && Get(a, "value") == Val(JStr(url)) && Plain(url)
    ensures var r := AddStepToScript(lines, a, enc);
            var head := "    await sendRequest('browser/navigate', { url: '";
            && r.Some?
            && StartsWith(r.value[|lines|], head)
            && ReadLiteral(r.value[|lines|][|head|..]) == Some(Lit(url, " });"))
  {
    var head := "    await sendRequest('browser/navigate', { url: '";
    var line := head + Escape(url) + "' });";
    assert AddStepToScript(lines, a, enc).value[|lines|] == line;
    assert line[..|head|] == head;
    assert line[|head|..] == Escape(url) + "'" + " });";
    EscapeReadsBack(url, " });");
  }

  /** The steps the gateway records are `tools/call` params; one without an
      `arguments` member and without a `type` makes the builder throw. */
  lemma ToolCallWithoutArgumentsThrows(name: string)
    requires name != ""
    ensures Throws(JObj(map["name" := JStr(name)]))
  {
  }

  /** A tool call whose name is an object with its own `toString` member
      makes the builder throw. */
  lemma ToStringKeyedNameThrows(lines: seq<string>, enc: Stringify)
    ensures AddStepToScript(lines, JObj(map["name" := JObj(map["toString" := JNum(1)]), "arguments" := JObj(map[])]), enc).None?
  {
    var a := JObj(map["name" := JObj(map["toString" := JNum(1)]), "arguments" := JObj(map[])]);
    assert IsToolCall(a) && !Printable(Get(a, "name").v);
  }

  /** A selecting action whose selector is such an object throws too. */
  lemma ToStringKeyedSelectorThrows(lines: seq<string>, enc: Stringify)
    ensures AddStepToScript(lines, JObj(map["type" := JStr("click"), "selector" := JObj(map["toString" := JNull])]), enc).None?
  {
    var a := JObj(map["type" := JStr("click"), "selector" := JObj(map["toString" := JNull])]);
    assert !IsToolCall(a) && Get(a, "type").v.s in Selecting && !Printable(OrText(Get(a, "selector"), ""));
  }

  /** The sum of `Appended` over a list of actions. */
  function TotalAppended(acts: seq<Json>): nat
  {
    if |acts| == 0 then 0 else Appended(acts[0]) + TotalAppended(acts[1..])
  }

  /** `actions.forEach(... addStepToScript ...)`: the first throwing action
      ends the whole generation. */
  function AddSteps(lines: seq<string>, acts: seq<Json>, enc: Stringify): (r: Option<seq<string>>)
    ensures r.None? <==> exists i :: 0 <= i < |acts| && Throws(acts[i])
    ensures r.Some? ==> |r.value| == |lines| + TotalAppended(acts) && r.value[..|lines|] == lines
    decreases |acts|
  {
    if |acts| == 0 then Some(lines)
    else
      match AddStepToScript(lines, acts[0], enc)
      case None => None
      case Some(next) =>
        var r := AddSteps(next, acts[1..], enc);
        assert (exists i :: 0 <= i < |acts| && Throws(acts[i])) <==> (exists i :: 0 <= i < |acts[1..]| && Throws(acts[1..][i])) by {
          if exists i :: 0 <= i < |acts| && Throws(acts[i]) {
            var i :| 0 <= i < |acts| && Throws(acts[i]);
            assert i > 0;
            assert Throws(acts[1..][i - 1]);
          }
        }
        r
  }

  /** The result object and, on success, the lines written to the file. */
  datatype Generation = Threw | Returned(fields: map<string, Json>, written: Option<seq<string>>)

  /** The file name `generateNodeScript` uses. */
  function TargetName(filename: Field, stamp: string): string
  {
    if Truthy(filename) && IsString(filename) then filename.v.s else DefaultFileName + "-" + stamp + ".js"
  }

  /** The actions it iterates: non-arrays count as `[]`. */
  function ActionList(actions: Json): seq<Json>
  {
    if actions.JArr? then actions.items else []
  }

  function SuccessMessage(n: nat): string
  {
    "已成功生成包含 " + NumText(n) + " 个自动化步骤的 Node.js 测试脚本"
  }

  /** `generateNodeScript` (lines 198-241). `writeError` is the message of
      the error the directory creation or the write raised, if any. The head
      is built first, so a target that cannot be printed throws before any
      action is looked at. */
  function GenerateNodeScript(url: Json, actions: Json, filename: Field, stamp: string,
                              enc: Stringify, writeError: Option<string>): (r: Generation)
    ensures r.Threw? <==>
      !Printable(Target(url)) || exists i :: 0 <= i < |ActionList(actions)| && Throws(ActionList(actions)[i])
    ensures r.Returned? && writeError.Some? ==>
      r == Returned(map["status" := JStr("error"), "message" := JStr("写入文件失败: " + writeError.value),
                        "generated_script_file" := JNull], None)
    ensures r.Returned? && writeError.None? ==>
      && r.fields == map["status" := JStr("success"), "message" := JStr(SuccessMessage(|ActionList(actions)|)),
                         "generated_script_file" := JStr(TargetName(filename, stamp))]
      && r.written.Some?
  {
    var acts := ActionList(actions);
    if !Printable(Target(url)) then Threw
    else match AddSteps(Header(url, Browser), acts, enc)
    case None => Threw
    case Some(body) =>
      var lines := Finalize(body);
      if writeError.Some? then
        Returned(map["status" := JStr("error"), "message" := JStr("写入文件失败: " + writeError.value),
                     "generated_script_file" := JNull], None)
      else
        Returned(map["status" := JStr("success"), "message" := JStr(SuccessMessage(|acts|)),
                     "generated_script_file" := JStr(TargetName(filename, stamp))], Some(lines))
  }

  /** A list of tool calls throws exactly when some call's name cannot be
      printed; the type/selector/value paths are never taken. */
  lemma ToolCallsThrowOnlyOnNames(acts: seq<Json>)
    requires forall i :: 0 <= i < |acts| ==> IsToolCall(acts[i])
    ensures (exists i :: 0 <= i < |acts| && Throws(acts[i])) <==> exists i :: 0 <= i < |acts| && !Replayable(acts[i])
  {
  }

  /** Generation over an action array returns exactly when the target prints
      and no action throws. */
  lemma QuietListReturns(url: Json, acts: seq<Json>, filename: Field, enc: Stringify)
    ensures GenerateNodeScript(url, JArr(acts), filename, "", enc, None).Returned?
        <==> Printable(Target(url)) && !exists i :: 0 <= i < |acts| && Throws(acts[i])
  {
    var r := GenerateNodeScript(url, JArr(acts), filename, "", enc, None);
    assert ActionList(JArr(acts)) == acts;
    assert r.Threw? <==> !Printable(Target(url)) || exists i :: 0 <= i < |acts| && Throws(acts[i]);
  }

  /** A returned generation with a successful write reports success under
      the name it was given. */
  lemma NamedTargetSucceeds(url: Json, actions: Json, name: string, enc: Stringify)
    requires name != ""
    requires GenerateNodeScript(url, actions, Val(JStr(name)), "", enc, None).Returned?
    ensures var r := GenerateNodeScript(url, actions, Val(JStr(name)), "", enc, None);
            && r.fields["status"] == JStr("success")
            && r.fields["generated_script_file"] == JStr(name)
  {
    assert TargetName(Val(JStr(name)), "") == name;
  }

  /** The written script is the header, the lines each action adds, and the
      fixed footer. */
  lemma ScriptShape(url: Json, actions: Json, filename: Field, stamp: string, enc: Stringify)
    requires GenerateNodeScript(url, actions, filename, stamp, enc, None).Returned?
    ensures var w := GenerateNodeScript(url, actions, filename, stamp, enc, None).written.value;
            && |w| == 73 + TotalAppended(ActionList(actions)) + 14
            && w[..73] == Header(url, Browser)
            && w[|w| - 14..] == FooterLines
  {
    var body := AddSteps(Header(url, Browser), ActionList(actions), enc).value;
    var lines := Finalize(body);
    assert lines[..73] == body[..73];
  }

  /** Non-array actions generate exactly what an empty list does. */
  lemma NonArrayIsEmpty(url: Json, actions: Json, filename: Field, stamp: string, enc: Stringify, writeError: Option<string>)
    requires !actions.JArr?
    ensures GenerateNodeScript(url, actions, filename, stamp, enc, writeError)
         == GenerateNodeScript(url, JArr([]), filename, stamp, enc, writeError)
  {
    assert ActionList(actions) == ActionList(JArr([]));
  }

  /** A leading tool call contributes its MCP lines and the fold goes on. */
  lemma ReplayStep(lines: seq<string>, acts: seq<Json>, enc: Stringify)
    requires |acts| > 0 && Replayable(acts[0])
    ensures AddSteps(lines, acts, enc) == AddSteps(HandleMcpFormat(lines, acts[0], enc).value, acts[1..], enc)
  {
  }

  /** The `tools/call` line an MCP-form action replays as. */
  function ReplayLine(a: Json, enc: Stringify): string
    requires Replayable(a)
  {
    ToolCallLine(Get(a, "name").v, if Truthy(Get(a, "arguments")) then Get(a, "arguments").v else JObj(map[]), enc)
  }

  /** The reference replay of a list of MCP-form actions: each adds its
      `tools/call` line and its log line. */
  function Replay(lines: seq<string>, acts: seq<Json>, enc: Stringify): (r: seq<string>)
    requires forall i :: 0 <= i < |acts| ==> Replayable(acts[i])
    ensures |r| == |lines| + 2 * |acts| && r[..|lines|] == lines
    decreases |acts|
  {
    if |acts| == 0 then lines
    else
      assert Replayable(acts[0]);
      assert forall i :: 0 <= i < |acts[1..]| ==> acts[1..][i] == acts[i + 1];
      Replay(HandleMcpFormat(lines, acts[0], enc).value, acts[1..], enc)
  }

  /** On a list of tool calls, the generator's fold is the reference replay. */
  lemma {:induction false} AddStepsIsReplay(lines: seq<string>, acts: seq<Json>, enc: Stringify)
    requires forall i :: 0 <= i < |acts| ==> Replayable(acts[i])
    ensures AddSteps(lines, acts, enc) == Some(Replay(lines, acts, enc))
    decreases |acts|
  {
    if |acts| > 0 {
      ReplayStep(lines, acts, enc);
      assert forall i :: 0 <= i < |acts[1..]| ==> acts[1..][i] == acts[i + 1];
      AddStepsIsReplay(HandleMcpFormat(lines, acts[0], enc).value, acts[1..], enc);
    }
  }

  /** The replay keeps the lines before it and puts call i's `tools/call`
      line at offset 2i. */
  lemma {:induction false} ReplayLines(lines: seq<string>, acts: seq<Json>, enc: Stringify)
    requires forall i :: 0 <= i < |acts| ==> Replayable(acts[i])
    ensures forall i :: 0 <= i < |acts| ==> Replay(lines, acts, enc)[|lines| + 2 * i] == ReplayLine(acts[i], enc)
    decreases |acts|
  {
    if |acts| > 0 {
      var next := HandleMcpFormat(lines, acts[0], enc).value;
      assert forall i :: 0 <= i < |acts[1..]| ==> acts[1..][i] == acts[i + 1];
      ReplayLines(next, acts[1..], enc);
      var r := Replay(next, acts[1..], enc);
      assert r == Replay(lines, acts, enc);
      forall i | 0 <= i < |acts|
        ensures r[|lines| + 2 * i] == ReplayLine(acts[i], enc)
      {
        if i == 0 {
          assert r[|lines|] == r[..|next|][|lines|];
        } else {
          assert |lines| + 2 * i == |next| + 2 * (i - 1);
        }
      }
    }
  }

  /** A list of recorded tool calls replays as two lines per call, in order. */
  lemma ToolCallsReplay(lines: seq<string>, acts: seq<Json>, enc: Stringify)
    requires forall i :: 0 <= i < |acts| ==> Replayable(acts[i])
    ensures AddSteps(lines, acts, enc).Some?
    ensures |AddSteps(lines, acts, enc).value| == |lines| + 2 * |acts|
    ensures forall i :: 0 <= i < |acts| ==> AddSteps(lines, acts, enc).value[|lines| + 2 * i] == ReplayLine(acts[i], enc)
  {
    AddStepsIsReplay(lines, acts, enc);
    ReplayLines(lines, acts, enc);
  }
}

=== FILE: start_py.dfy ===
/** The Python script builder `PlaywrightTestTool.call` of start.py: the
    script lines and the `results` record it returns. Parsing the JSON5
    argument, Python's `str()` of a value and the file write are kept outside;
    `str()` is a parameter constrained on the values it must print exactly. */
module PyScript {
  import opened Json

  /** What Python's `str()` gives for the scalar values of a parsed argument. */
  ghost predicate PythonStr(str: Json -> string)
  {
    && (forall s :: str(JStr(s)) == s)
    && (forall n :: str(JNum(n)) == NumText(n))
    && str(JNull) == "None" && str(JBool(true)) == "True" && str(JBool(false)) == "False"
  }

  /** `d.get(key, default)` on a dict. */
  function PyGet(d: Json, key: string, default: Json): (r: Json)
    requires d.JObj?
    ensures key in d.fields ==> r == d.fields[key]
    ensures key !in d.fields ==> r == default
  {
    if key in d.fields then d.fields[key] else default
  }

  /** The elements `enumerate(actions)` visits, when every one of them is a
      value `.get` can be called on: a list of dicts, or an empty string or
      dict. None when the loop would raise: `actions` is not iterable, or an
      element is not a dict (the characters of a string and the keys of a
      dict are strings). */
  function Elements(actions: Json): (r: Option<seq<Json>>)
    ensures r.Some? ==> forall i :: 0 <= i < |r.value| ==> r.value[i].JObj?
    ensures actions.JArr? && (forall i :: 0 <= i < |actions.items| ==> actions.items[i].JObj?) ==> r == Some(actions.items)
  {
    match actions
    case JArr(items) => if forall i :: 0 <= i < |items| ==> items[i].JObj? then Some(items) else None
    case JStr(s) => if s == "" then Some([]) else None
    case JObj(m) => if m == map[] then Some([]) else None
    case _ => None
  }

  /** The seven supported action types. */
  const Supported: set<string> := {"click", "fill", "wait", "screenshot", "text", "get_elements", "snapshot"}

  function Kind(a: Json): Json
    requires a.JObj?
  {
    PyGet(a, "type", JNull)
  }

  predicate IsSupported(a: Json)
    requires a.JObj?
  {
    Kind(a).JStr? && Kind(a).s in Supported
  }

  predicate IsScreenshot(a: Json)
    requires a.JObj?
  {
    Kind(a) == JStr("screenshot")
  }

  /** The number of script lines an action adds: one for click, fill, wait
      and screenshot, two for text, get_elements and snapshot, none otherwise. */
  function LinesOf(a: Json): nat
    requires a.JObj?
  {
    if !IsSupported(a) then 0
    else if Kind(a).s in {"text", "get_elements", "snapshot"} then 2
    else 1
  }

  predicate AllObjects(acts: seq<Json>)
  {
    forall i :: 0 <= i < |acts| ==> acts[i].JObj?
  }

  /** Total lines added by a list of actions. */
  function LineCount(acts: seq<Json>): nat
    requires AllObjects(acts)
  {
    if |acts| == 0 then 0 else LineCount(acts[..|acts| - 1]) + LinesOf(acts[|acts| - 1])
  }

  /** The `value`s of the screenshot actions, in action order. */
  function ScreenshotValues(acts: seq<Json>): seq<Json>
    requires AllObjects(acts)
  {
    if |acts| == 0 then []
    else
      var last := acts[|acts| - 1];
      ScreenshotValues(acts[..|acts| - 1]) + (if IsScreenshot(last) then [PyGet(last, "value", JStr(""))] else [])
  }

  /** The 8 header lines (start.py:70-77); the last opens the page. */
  function Header(url: string): (r: seq<string>)
    ensures |r| == 8 && r[7] == "        page.goto('" + url + "')\n"
  {
    ["# 生成的 Playwright 自动化测试脚本\n",
     "from playwright.sync_api import sync_playwright\n",
     "\n",
     "def run_automation():\n",
     "    with sync_playwright() as p:\n",
     "        browser = p.chromium.launch(headless=False)\n",
     "        page = browser.new_page()\n",
     "        page.goto('" + url + "')\n"]
  }

  /** The 4 footer lines (lines 140-143). */
  const Footer: seq<string> := ["        browser.close()\n", "\n", "if __name__ == '__main__':\n", "    run_automation()\n"]

  /** The script lines of one action (lines 100-133). */
  function ActionLines(a: Json, str: Json -> string): (r: seq<string>)
    requires a.JObj?
    ensures |r| == LinesOf(a)
  {
    var kind := Kind(a);
    var selector := str(PyGet(a, "selector", JStr("")));
    var value := str(PyGet(a, "value", JStr("")));
    if kind == JStr("click") then ["        page.click('" + selector + "')\n"]
    else if kind == JStr("fill") then ["        page.fill('" + selector + "', '" + value + "')\n"]
    else if kind == JStr("wait") then ["        page.wait_for_timeout(" + value + ")\n"]
    else if kind == JStr("screenshot") then ["        page.screenshot(path='" + value + "')\n"]
    else if kind == JStr("text") then
      ["        text = page.locator('" + selector + "').text_content()\n", "        print(f'元素文本: {text}')\n"]
    else if kind == JStr("get_elements") then
      ["        elements = page.query_selector_all('" + selector + "')\n", "        print(f'找到 {len(elements)} 个元素: {elements}')\n"]
    else if kind == JStr("snapshot") then
      ["        content = page.content()\n", "        print(f'页面快照: {content[:200]}...')\n"]
    else []
  }

  /** The script lines of a list of actions, in action order. */
  function AllActionLines(acts: seq<Json>, str: Json -> string): (r: seq<string>)
    requires AllObjects(acts)
    ensures |r| == LineCount(acts)
  {
    if |acts| == 0 then []
    else
      assert AllObjects(acts[..|acts| - 1]);
      AllActionLines(acts[..|acts| - 1], str) + ActionLines(acts[|acts| - 1], str)
  }

  /** The step description of the action numbered `n` (1-based). */
  function Describe(a: Json, n: nat, str: Json -> string): string
    requires a.JObj?
  {
    var kind := Kind(a);
    var selector := str(PyGet(a, "selector", JStr("")));
    var value := str(PyGet(a, "value", JStr("")));
    var head := "第 " + NumText(n) + " 步: ";
    if kind == JStr("click") then head + "点击元素 '" + selector + "'"
    else if kind == JStr("fill") then head + "在 '" + selector + "' 填入 '" + value + "'"
    else if kind == JStr("wait") then head + "等待 " + value + " 毫秒"
    else if kind == JStr("screenshot") then head + "截图保存至 '" + value + "'"
    else if kind == JStr("text") then head + "获取元素 '" + selector + "' 的文本"
    else if kind == JStr("get_elements") then head + "获取页面元素 '" + selector + "' 的信息"
    else if kind == JStr("snapshot") then head + "获取页面快照"
    else head + "不支持的操作类型 '" + str(kind) + "'"
  }

  /** The step descriptions of a list of actions, numbered from 1. */
  function Descriptions(acts: seq<Json>, str: Json -> string): (r: seq<string>)
    requires AllObjects(acts)
    ensures |r| == |acts|
  {
    if |acts| == 0 then []
    else
      assert AllObjects(acts[..|acts| - 1]);
      Descriptions(acts[..|acts| - 1], str) + [Describe(acts[|acts| - 1], |acts|, str)]
  }

  /** The `results` record and the script lines written to the file. */
  datatype Outcome = Outcome(
    status: string,
    message: string,
    testSteps: seq<string>,
    pageElements: seq<Json>,
    screenshots: seq<Json>,
    scriptFile: string,
    script: seq<string>)

  /** Every prefix of a list of dicts is a list of dicts. */
  lemma PrefixAllObjects(acts: seq<Json>, i: nat)
    requires AllObjects(acts) && i <= |acts|
    ensures AllObjects(acts[..i])
  {
    assert forall j :: 0 <= j < i ==> acts[..i][j] == acts[j];
  }

  /** Whether some action has an unsupported type, scanning from the end. */
  function AnyUnsupported(acts: seq<Json>): bool
    requires AllObjects(acts)
  {
    |acts| > 0 && (AnyUnsupported(acts[..|acts| - 1]) || !IsSupported(acts[|acts| - 1]))
  }

  lemma {:induction false} AnyUnsupportedIffExists(acts: seq<Json>)
    requires AllObjects(acts)
    ensures AnyUnsupported(acts) <==> exists i :: 0 <= i < |acts| && !IsSupported(acts[i])
  {
    if |acts| > 0 {
      var init := acts[..|acts| - 1];
      PrefixAllObjects(acts, |acts| - 1);
      AnyUnsupportedIffExists(init);
      assert forall i :: 0 <= i < |init| ==> init[i] == acts[i];
      if exists i :: 0 <= i < |acts| && !IsSupported(acts[i]) {
        var i :| 0 <= i < |acts| && !IsSupported(acts[i]);
        if i < |init| {
          assert !IsSupported(init[i]);
        }
      }
    }
  }

  /** What the prefix-recursive summaries gain by one more action. */
  lemma ExtendPrefix(acts: seq<Json>, i: nat, str: Json -> string)
    requires AllObjects(acts) && i < |acts|
    ensures AllObjects(acts[..i]) && AllObjects(acts[..i + 1])
    ensures LineCount(acts[..i + 1]) == LineCount(acts[..i]) + LinesOf(acts[i])
    ensures AllActionLines(acts[..i + 1], str) == AllActionLines(acts[..i], str) + ActionLines(acts[i], str)
    ensures ScreenshotValues(acts[..i + 1])
         == ScreenshotValues(acts[..i]) + (if IsScreenshot(acts[i]) then [PyGet(acts[i], "value", JStr(""))] else [])
    ensures AnyUnsupported(acts[..i + 1]) == (AnyUnsupported(acts[..i]) || !IsSupported(acts[i]))
    ensures Descriptions(acts[..i + 1], str) == Descriptions(acts[..i], str) + [Describe(acts[i], i + 1, str)]
  {
    PrefixAllObjects(acts, i);
    PrefixAllObjects(acts, i + 1);
    assert acts[..i + 1][..i] == acts[..i];
    assert acts[..i + 1][i] == acts[i];
  }

  /** The description at position i is that of the (i+1)-th action. */
  lemma {:induction false} DescriptionAt(acts: seq<Json>, str: Json -> string, i: nat)
    requires AllObjects(acts) && i < |acts|
    ensures Descriptions(acts, str)[i] == Describe(acts[i], i + 1, str)
    decreases |acts|
  {
    if i < |acts| - 1 {
      var init := acts[..|acts| - 1];
      PrefixAllObjects(acts, |acts| - 1);
      DescriptionAt(init, str, i);
      assert init[i] == acts[i];
    }
  }

  /** The loop of lines 93-138 over `acts`: the steps, behind the URL step,
      the screenshots it records, and the script lines it adds after the
      header. */
  method Build(url: string, acts: seq<Json>, str: Json -> string) returns (failed: bool, steps: seq<string>, shots: seq<Json>, added: seq<string>)
    requires AllObjects(acts)
    ensures failed <==> exists i :: 0 <= i < |acts| && !IsSupported(acts[i])
    ensures |steps| == |acts| + 1 && steps[0] == "访问 URL: " + url
    ensures steps == ["访问 URL: " + url] + Descriptions(acts, str)
    ensures shots == ScreenshotValues(acts)
    ensures |added| == LineCount(acts) && added == AllActionLines(acts, str)
  {
    failed := false;
    shots := [];
    steps := ["访问 URL: " + url];
    added := [];
    var i := 0;
    while i < |acts|
      invariant 0 <= i <= |acts|
      invariant AllObjects(acts[..i])
      invariant failed == AnyUnsupported(acts[..i])
      invariant steps == ["访问 URL: " + url] + Descriptions(acts[..i], str)
      invariant shots == ScreenshotValues(acts[..i])
      invariant added == AllActionLines(acts[..i], str)
    {
      var a := acts[i];
      ExtendPrefix(acts, i, str);
      added := added + ActionLines(a, str);
      if IsScreenshot(a) {
        shots := shots + [PyGet(a, "value", JStr(""))];
      }
      if !IsSupported(a) {
        failed := true;
      }
      steps := steps + [Describe(a, i + 1, str)];
      i := i + 1;
    }
    assert acts[..i] == acts;
    AnyUnsupportedIffExists(acts);
  }

  /** Lines written after the header leave the header in front. */
  lemma HeaderLeads(url: string, body: seq<string>)
    ensures |Header(url) + body| == 8 + |body|
    ensures (Header(url) + body)[..8] == Header(url)
  {
    assert (Header(url) + body)[..|Header(url)|] == Header(url);
  }

  /** `PlaywrightTestTool.call` (start.py:58-153) on the parsed argument
      `data`, with `stamp` the value of `int(time.time())`. None when the call
      raises: `data` is not a dict, or the loop cannot run over `actions`. */
  method Call(data: Json, stamp: int, str: Json -> string) returns (r: Option<Outcome>)
    requires PythonStr(str)
    ensures r.None? <==> !(data.JObj? && Elements(PyGet(data, "actions", JArr([]))).Some?)
    ensures r.Some? ==>
      var url := str(PyGet(data, "url", JStr("")));
      var acts := Elements(PyGet(data, "actions", JArr([]))).value;
      && (r.value.status == "error" <==> exists i :: 0 <= i < |acts| && !IsSupported(acts[i]))
      && (r.value.status == "success" <==> forall i :: 0 <= i < |acts| ==> IsSupported(acts[i]))
      && r.value.message == "已成功执行 " + NumText(|acts|) + " 个自动化步骤"
      && |r.value.testSteps| == |acts| + 1
      && r.value.testSteps[0] == "访问 URL: " + url
      && r.value.testSteps == ["访问 URL: " + url] + Descriptions(acts, str)
      && r.value.pageElements == []
      && r.value.screenshots == ScreenshotValues(acts)
      && r.value.scriptFile == "test-" + NumText(stamp) + ".py"
      && |r.value.script| == 8 + LineCount(acts) + 4
      && r.value.script[..8] == Header(url)
      && r.value.script[|r.value.script| - 4..] == Footer
      && r.value.script == Header(url) + AllActionLines(acts, str) + Footer
  {
    if !data.JObj? {
      return None;
    }
    var elements := Elements(PyGet(data, "actions", JArr([])));
    if elements.None? {
      return None;
    }
    var acts := elements.value;
    var url := str(PyGet(data, "url", JStr("")));
    var failed, steps, shots, added := Build(url, acts, str);
    var status := if failed then "error" else "success";
    var script := Header(url) + added + Footer;
    HeaderLeads(url, added);
    assert script[..8] == (Header(url) + added)[..8];
    r := Some(Outcome(status, "已成功执行 " + NumText(|acts|) + " 个自动化步骤", steps, [], shots,
                      "test-" + NumText(stamp) + ".py", script));
  }

  /** A missing selector prints as the empty string. */
  lemma MissingSelectorIsEmpty(a: Json, str: Json -> string)
    requires PythonStr(str)
    requires a.JObj? && "selector" !in a.fields && Kind(a) == JStr("click")
    ensures ActionLines(a, str) == ["        page.click('')\n"]
  {
    assert PyGet(a, "selector", JStr("")) == JStr("");
    assert str(JStr("")) == "";
    assert ActionLines(a, str) == ["        page.click('" + "" + "')\n"];
    assert "        page.click('" + "" + "')\n" == "        page.click('')\n";
  }

  /** A missing type is reported as `None` in an unsupported step. */
  lemma MissingTypeIsUnsupported(a: Json, n: nat, str: Json -> string)
    requires PythonStr(str)
    requires a.JObj? && "type" !in a.fields
    ensures !IsSupported(a) && ActionLines(a, str) == []
    ensures Describe(a, n, str) == "第 " + NumText(n) + " 步: 不支持的操作类型 'None'"
  {
    assert Kind(a) == JNull;
    assert str(Kind(a)) == "None";
  }

  /** Screenshots are collected action by action: appending an action adds
      its value when it is a screenshot and nothing otherwise. */
  lemma ScreenshotValuesAppend(acts: seq<Json>, a: Json)
    requires AllObjects(acts) && a.JObj?
    ensures AllObjects(acts + [a])
    ensures ScreenshotValues(acts + [a])
         == ScreenshotValues(acts) + (if IsScreenshot(a) then [PyGet(a, "value", JStr(""))] else [])
  {
    assert (acts + [a])[..|acts|] == acts;
  }

  /** The screenshots of two runs of actions are those of the first, then
      those of the second. */
  lemma {:induction false} ScreenshotValuesConcat(xs: seq<Json>, ys: seq<Json>)
    requires AllObjects(xs) && AllObjects(ys)
    ensures AllObjects(xs + ys)
    ensures ScreenshotValues(xs + ys) == ScreenshotValues(xs) + ScreenshotValues(ys)
    decreases |ys|
  {
    if |ys| == 0 {
      assert xs + ys == xs;
    } else {
      var init, last := ys[..|ys| - 1], ys[|ys| - 1];
      PrefixAllObjects(ys, |ys| - 1);
      ScreenshotValuesConcat(xs, init);
      assert xs + ys == (xs + init) + [last];
      assert init + [last] == ys;
      ScreenshotValuesAppend(xs + init, last);
      ScreenshotValuesAppend(init, last);
      var shot := if IsScreenshot(last) then [PyGet(last, "value", JStr(""))] else [];
      AppendAssoc(ScreenshotValues(xs), ScreenshotValues(init), shot);
    }
  }

  /** There are no more screenshots than actions, and none without a
      screenshot action. */
  lemma {:induction false} ScreenshotsCountShots(acts: seq<Json>)
    requires AllObjects(acts)
    ensures |ScreenshotValues(acts)| <= |acts|
    ensures (forall i :: 0 <= i < |acts| ==> !IsScreenshot(acts[i])) ==> ScreenshotValues(acts) == []
  {
    if |acts| > 0 {
      var init := acts[..|acts| - 1];
      assert AllObjects(init) by {
        forall i | 0 <= i < |init| ensures init[i].JObj? {
          assert init[i] == acts[i];
        }
      }
      ScreenshotsCountShots(init);
      if forall i :: 0 <= i < |acts| ==> !IsScreenshot(acts[i]) {
        assert forall i :: 0 <= i < |init| ==> init[i] == acts[i];
      }
    }
  }
}

=== FILE: steps_log.dfy ===
/** The in-memory action log and current page URL (modules/test-steps-manager.js,
    `TestStepsManager`). The backing file is kept abstractly as whether it
    exists and what JSON.parse makes of its content; every write succeeds. */
module StepsLog {
  import opened Json

  /** The testSteps file: absent, or present with a content that parses to a
      value (Some) or does not (None). */
  datatype StepsFile = Absent | Holds(content: Option<Json>)

  datatype Manager = Manager(steps: seq<Json>, pageUrl: Json, file: StepsFile)

  /** Line 23 logs `${list.length}` inside the try: that throws for a parsed
      `null`, and for an object whose `length` member `String` cannot print.
      (Arrays and strings have a numeric length, which always prints.) */
  predicate LogThrows(j: Json)
  {
    j.JNull? || (Get(j, "length").Val? && !Printable(Get(j, "length").v))
  }

  /** `loadTestSteps` (test-steps-manager.js:17-34). A throw inside the try,
      from parsing or from the log line, falls back to `[]`. */
  function Load(f: StepsFile): (r: Json)
    ensures f.Absent? ==> r == JArr([])
    ensures f.Holds? && f.content.None? ==> r == JArr([])
    ensures f.Holds? && f.content == Some(JNull) ==> r == JArr([])
    ensures f.Holds? && f.content.Some? && Get(f.content.value, "length").Val? && !Printable(Get(f.content.value, "length").v) ==>
      r == JArr([])
    ensures f.Holds? && f.content.Some? && !LogThrows(f.content.value) ==> r == f.content.value
    // whatever it returns was either parsed from the file or is the empty fallback
    ensures r == JArr([]) || (f.Holds? && f.content == Some(r))
  {
    match f
    case Absent => JArr([])
    case Holds(content) =>
      match content
      case None => JArr([])
      case Some(j) => if LogThrows(j) then JArr([]) else j
  }

  /** A file holding `{"length": {"toString": 0}}` loads as `[]`: logging its
      length throws. */
  lemma ToStringKeyedLengthLoadsEmpty()
    ensures Load(Holds(Some(JObj(map["length" := JObj(map["toString" := JNum(0)])])))) == JArr([])
  {
    var j := JObj(map["length" := JObj(map["toString" := JNum(0)])]);
    assert !Printable(Get(j, "length").v);
  }

  /** The file contents after `JSON.stringify(steps)` is written and read back. */
  function Saved(steps: seq<Json>): StepsFile
  {
    Holds(Some(JArr(steps)))
  }

  /** The constructor (lines 11-14). A file holding a non-array value would
      make the next push throw, so the model asks for an array. */
  function New(f: StepsFile): (m: Manager)
    requires Load(f).JArr?
    ensures m.pageUrl == JStr("")
    ensures JArr(m.steps) == Load(f) && m.file == f
    ensures f.Absent? ==> m.steps == []
  {
    Manager(Load(f).items, JStr(""), f)
  }

  /** `addTestStep` (lines 65-69): append, then save the whole list. */
  function AddStep(m: Manager, step: Json): (r: Manager)
    ensures |r.steps| == |m.steps| + 1
    ensures r.steps[..|m.steps|] == m.steps && r.steps[|m.steps|] == step
    ensures r.pageUrl == m.pageUrl
    ensures Load(r.file) == JArr(r.steps)
  {
    var steps := m.steps + [step];
    m.(steps := steps, file := Saved(steps))
  }

  /** `clearTestSteps` (lines 47-57): empty the list, and the file when it exists. */
  function Clear(m: Manager): (r: Manager)
    ensures r.steps == [] && r.pageUrl == m.pageUrl
    ensures Load(r.file) == JArr([])
    ensures r.file.Absent? <==> m.file.Absent?
  {
    m.(steps := [], file := if m.file.Absent? then Absent else Saved([]))
  }

  /** `getTestSteps` (lines 60-62). */
  function GetSteps(m: Manager): seq<Json>
  {
    m.steps
  }

  /** `setCurrentPageUrl` (lines 72-74). */
  function SetPageUrl(m: Manager, url: Json): (r: Manager)
    ensures r.steps == m.steps && r.file == m.file
  {
    m.(pageUrl := url)
  }

  /** `getCurrentPageUrl` (lines 77-79). */
  function GetPageUrl(m: Manager): Json
  {
    m.pageUrl
  }

  /** Setting the page URL and reading it back gives the URL set. */
  lemma PageUrlRoundTrip(m: Manager, url: Json)
    ensures GetPageUrl(SetPageUrl(m, url)) == url
  {
  }

  /** The manager after adding `steps` one at a time. */
  function AddAll(m: Manager, steps: seq<Json>): (r: Manager)
    decreases |steps|
  {
    if |steps| == 0 then m else AddAll(AddStep(m, steps[0]), steps[1..])
  }

  /** A sequence of additions appends the steps in order, keeps the page
      URL, and leaves a file that loads as the whole list. */
  lemma {:induction false} AddAllAppends(m: Manager, steps: seq<Json>)
    ensures AddAll(m, steps).steps == m.steps + steps
    ensures AddAll(m, steps).pageUrl == m.pageUrl
    ensures |steps| > 0 ==> Load(AddAll(m, steps).file) == JArr(m.steps + steps)
    decreases |steps|
  {
    if |steps| > 0 {
      var m1 := AddStep(m, steps[0]);
      AddAllAppends(m1, steps[1..]);
      assert m1.steps + steps[1..] == m.steps + steps;
    }
  }

  /** Steps recorded from a fresh start are read back in order, both from
      memory and by a manager rebuilt from the file. */
  lemma RecordedStepsReadBack(steps: seq<Json>)
    ensures var m := AddAll(New(Absent), steps);
            GetSteps(m) == steps && Load(m.file) == JArr(steps) && New(m.file).steps == steps
  {
    AddAllAppends(New(Absent), steps);
  }

  /** After a clear, a manager rebuilt from the file starts empty. */
  lemma ClearThenReload(m: Manager)
    ensures New(Clear(m).file).steps == []
  {
  }
}

=== FILE: supervisor.dfy ===
/** The supervisor of the child `@playwright/mcp` process and its request
    router (modules/service-manager.js, `PlaywrightServiceManager`; the same
    logic is duplicated as module-level functions in
    playwright-script-gen-mcp.js:131-401).

    Node runs every handler to completion on one thread, so the supervisor is
    a deterministic transition system: each function below is one handler,
    taking the current record to the next. Timers are counters of pending
    callbacks, and the writes to the child's stdin and to the client's stdout
    are kept as traces. */
module Supervisor {
  import opened Json
  import opened Callbacks

  const ProbePrefix := "health_check_"
  const ProbeMethod := "ping"

  /** A request waiting for readiness: `{request, id, callback}`. */
  datatype Entry = Entry(request: Json, id: Field, callback: Option<Handler>)

  /** What runs when a `startPlaywrightMcp()` promise settles: the boot-time
      start, a client request suspended in handleRequest, or the resend
      scheduled after a failed write. */
  datatype Continuation = Boot | Resume(request: Json) | Resend(entry: Entry)

  /** An unsettled `startPlaywrightMcp()` promise; `timed` when its branch
      armed the startup timeout. */
  datatype Waiter = Waiter(next: Continuation, timed: bool)

  /** A line written to the client: a raw child chunk, or a serialised message. */
  datatype Out = Raw(text: string) | Msg(body: Json)

  /** One chunk of child stdout and the outcome of `JSON.parse` on it. */
  datatype ChildOutput = ChildOutput(raw: string, parsed: Option<Json>)

  /** A callback call `callback(null, response)` the router performs. */
  datatype Invocation = Invocation(handler: Handler, response: Json)

  datatype Sup = Sup(
    hasInstance: bool,             // mockPlaywrightMcpInstance !== null
    ready: bool,                   // isPlaywrightMcpReady
    timerArmed: bool,              // healthCheckInterval !== null
    firstProbes: nat,              // pending 500 ms first-probe timeouts
    restarts: nat,                 // pending 1 s restart timeouts
    queue: seq<Entry>,             // pendingRequests
    callbacks: map<Field, Handler>,// pendingCallbacks
    waiters: seq<Waiter>,          // unsettled startPlaywrightMcp() promises
    toChild: seq<Json>,            // messages written to the child's stdin
    toClient: seq<Out>)            // lines written to our stdout

  /** The outcome of every write to the child's stdin, indexed by the number
      of messages already written: the write made when `|toChild| == n`
      succeeds exactly when `w(n)`. A failed write adds nothing to the trace,
      so one function fixes the outcome of each write of a drain in turn. */
  type Writes = nat -> bool

  /** The constructor (service-manager.js:7-15). */
  function Init(): (s: Sup)
    ensures !s.hasInstance && !s.ready && !s.timerArmed
    ensures s.queue == [] && s.callbacks == map[] && s.waiters == []
    ensures s.firstProbes == 0 && s.restarts == 0
    ensures s.toChild == [] && s.toClient == []
  {
    Sup(false, false, false, 0, 0, [], map[], [], [], [])
  }

  /** The probe request `{method: 'ping', id: 'health_check_<stamp>', jsonrpc: '2.0'}`. */
  function Probe(stamp: string): Json
  {
    JObj(map["method" := JStr(ProbeMethod), "id" := JStr(ProbePrefix + stamp), "jsonrpc" := JStr("2.0")])
  }

  /** Line 38 logs `${response.id}`, which throws inside the try for an id
      that `String` cannot convert; the chunk is then dropped as garbage. */
  predicate UnprintableId(id: Field)
  {
    id.Val? && !Printable(id.v)
  }

  /** The test of line 40: a defined, non-null id whose `String(id)` carries
      the probe prefix (reached only when line 38 did not throw). */
  predicate IsProbeId(id: Field)
  {
    id.Val? && !id.v.JNull? && Printable(id.v) && StartsWith(Text(id.v), ProbePrefix)
  }

  /** The ids the probe sends are the ids the router recognises. */
  lemma ProbeIsRecognised(stamp: string)
    ensures IsProbeId(Get(Probe(stamp), "id"))
  {
    assert (ProbePrefix + stamp)[..|ProbePrefix|] == ProbePrefix;
  }

  /** A numeric id is never taken for a probe: its text starts with a digit or '-'. */
  lemma NumericIdIsNotProbe(n: int)
    ensures !IsProbeId(Val(JNum(n)))
  {
    var t := NumText(n);
    assert t[0] != ProbePrefix[0];
    if |ProbePrefix| <= |t| {
      assert t[..|ProbePrefix|][0] != ProbePrefix[0];
    }
  }

  /** A client's own string id with the reserved prefix is indistinguishable
      from a probe. */
  lemma PrefixedClientIdIsProbe(suffix: string)
    ensures IsProbeId(Val(JStr(ProbePrefix + suffix)))
  {
    assert (ProbePrefix + suffix)[..|ProbePrefix|] == ProbePrefix;
  }

  /** `String(["health_check_1"])` is "health_check_1", so even an array id is
      taken for a probe. */
  lemma ArrayIdCanBeProbe()
    ensures IsProbeId(Val(JArr([JStr("health_check_1")])))
  {
    var items := [JStr("health_check_1")];
    var parts := seq(|items|, i requires 0 <= i < |items| => if items[i].JNull? then "" else Text(items[i]));
    assert parts == ["health_check_1"];
    assert Text(JArr(items)) == "health_check_1";
  }

  /** `connectToPlaywrightMcp` (service-manager.js:18-124): spawn a child and
      schedule its first probe. Earlier state is kept: a replaced child's
      handlers keep acting on the same record. */
  function Connect(s: Sup): (r: Sup)
    ensures r.hasInstance && r.firstProbes == s.firstProbes + 1
    ensures r.(hasInstance := s.hasInstance, firstProbes := s.firstProbes) == s
  {
    s.(hasInstance := true, firstProbes := s.firstProbes + 1)
  }

  /** `performHealthCheck` (service-manager.js:127-159). Without a child it
      spawns one; with a child lacking stdin it stops the timer and drops
      readiness; otherwise it writes a probe, and a failing write only drops
      readiness. */
  function HealthCheck(s: Sup, stdinPresent: bool, writeOk: bool, stamp: string): (r: Sup)
    ensures !s.hasInstance ==> r == Connect(s)
    ensures s.hasInstance && !stdinPresent ==> r == s.(ready := false, timerArmed := false)
    ensures s.hasInstance && stdinPresent && writeOk ==> r == s.(toChild := s.toChild + [Probe(stamp)])
    ensures s.hasInstance && stdinPresent && !writeOk ==> r == s.(ready := false)
    ensures r.ready ==> s.ready
    ensures r.queue == s.queue && r.callbacks == s.callbacks && r.toClient == s.toClient
  {
    if !s.hasInstance then Connect(s)
    else if !stdinPresent then s.(ready := false, timerArmed := false)
    else if writeOk then s.(toChild := s.toChild + [Probe(stamp)])
    else s.(ready := false)
  }

  /** The 500 ms first-probe timeout (lines 119-123): probes only if a child exists. */
  function FirstProbeFires(s: Sup, stdinPresent: bool, writeOk: bool, stamp: string): (r: Sup)
    ensures s.firstProbes == 0 ==> r == s
    ensures s.firstProbes > 0 && !s.hasInstance ==> r == s.(firstProbes := s.firstProbes - 1)
    ensures s.firstProbes > 0 && s.hasInstance ==>
      r == HealthCheck(s.(firstProbes := s.firstProbes - 1), stdinPresent, writeOk, stamp)
  {
    if s.firstProbes == 0 then s
    else
      var s1 := s.(firstProbes := s.firstProbes - 1);
      if s1.hasInstance then HealthCheck(s1, stdinPresent, writeOk, stamp) else s1
  }

  /** A tick of the periodic health-check interval (line 51). */
  function IntervalFires(s: Sup, stdinPresent: bool, writeOk: bool, stamp: string): (r: Sup)
    ensures !s.timerArmed ==> r == s
    ensures s.timerArmed ==> r == HealthCheck(s, stdinPresent, writeOk, stamp)
  {
    if s.timerArmed then HealthCheck(s, stdinPresent, writeOk, stamp) else s
  }

  /** The 1 s restart timeout scheduled by a non-zero exit (lines 99-101). */
  function RestartFires(s: Sup): (r: Sup)
    ensures s.restarts == 0 ==> r == s
    ensures s.restarts > 0 ==> r.hasInstance && r.restarts == s.restarts - 1
    ensures r.ready == s.ready && r.queue == s.queue && r.callbacks == s.callbacks
  {
    if s.restarts == 0 then s else Connect(s.(restarts := s.restarts - 1))
  }

  /** The child's `close` event (lines 85-103). `code` is None when the child
      was killed by a signal, which JavaScript reports as a null code. */
  function OnClose(s: Sup, code: Option<int>): (r: Sup)
    ensures !r.hasInstance && !r.ready && !r.timerArmed
    ensures r.restarts > s.restarts <==> code != Some(0)
    ensures r.restarts <= s.restarts + 1
    // nothing a request left behind is touched
    ensures r.queue == s.queue && r.callbacks == s.callbacks && r.waiters == s.waiters
    ensures r.toChild == s.toChild && r.toClient == s.toClient && r.firstProbes == s.firstProbes
  {
    var torn := s.(hasInstance := false, ready := false, timerArmed := false);
    if code != Some(0) then torn.(restarts := s.restarts + 1) else torn
  }

  /** The child's `error` event (lines 106-116): the same teardown, no restart. */
  function OnError(s: Sup): (r: Sup)
    ensures !r.hasInstance && !r.ready && !r.timerArmed
    ensures r.restarts == s.restarts && r.firstProbes == s.firstProbes
    ensures r.queue == s.queue && r.callbacks == s.callbacks && r.waiters == s.waiters
    ensures r.toChild == s.toChild && r.toClient == s.toClient
  {
    s.(hasInstance := false, ready := false, timerArmed := false)
  }

  /** `cleanup` (lines 276-287): stops the timer and signals the child. The
      reference is not cleared; the child's later `close` arrives as an
      ordinary event. */
  function Cleanup(s: Sup): (r: Sup)
    ensures !r.timerArmed
    ensures r.hasInstance == s.hasInstance && r.ready == s.ready
    ensures r.queue == s.queue && r.callbacks == s.callbacks && r.toChild == s.toChild
    ensures r.waiters == s.waiters && r.restarts == s.restarts && r.firstProbes == s.firstProbes
    ensures r.toClient == s.toClient
  {
    s.(timerArmed := false)
  }

  /** A kill from cleanup is reported with a null exit code, which is not 0,
      so the close that follows schedules a restart. */
  lemma CleanupThenSignalCloseRestarts(s: Sup)
    ensures OnClose(Cleanup(s), None).restarts == s.restarts + 1
  {
  }

  /** The outcome of `startPlaywrightMcp()` (lines 162-201): the next state,
      and the continuation when the promise resolved on the spot. */
  datatype Started = Started(state: Sup, now: Option<Continuation>)

  function Start(s: Sup, next: Continuation): (r: Started)
    // a ready child: resolve at once
    ensures s.hasInstance && s.ready ==> r == Started(s, Some(next))
    // a child that is not ready yet: wait, with no timeout at all
    ensures s.hasInstance && !s.ready ==>
      r == Started(s.(waiters := s.waiters + [Waiter(next, false)]), None)
    // no child: spawn one and wait, bounded by the startup timeout
    ensures !s.hasInstance ==>
      r.now.None? && r.state == Connect(s).(waiters := s.waiters + [Waiter(next, true)])
  {
    if s.hasInstance then
      if s.ready then Started(s, Some(next))
      else Started(s.(waiters := s.waiters + [Waiter(next, false)]), None)
    else
      Started(Connect(s).(waiters := s.waiters + [Waiter(next, true)]), None)
  }

  /** The callback map after registering `e`'s callback, if it has one. */
  function Register(callbacks: map<Field, Handler>, e: Entry): map<Field, Handler>
  {
    if e.callback.Some? then callbacks[e.id := e.callback.value] else callbacks
  }

  /** `sendToPlaywrightMcp` (lines 213-249). */
  function Send(s: Sup, e: Entry, writeOk: bool): (r: Sup)
    // not deliverable: queue it and do nothing else
    ensures !(s.hasInstance && s.ready) ==> r == s.(queue := s.queue + [e])
    // a successful write, then the callback is registered
    ensures s.hasInstance && s.ready && writeOk ==>
      r == s.(toChild := s.toChild + [e.request], callbacks := Register(s.callbacks, e))
    // a failed write registers nothing, tears the child down, respawns it and
    // parks the request until the new child is ready
    ensures s.hasInstance && s.ready && !writeOk ==>
      && r.toChild == s.toChild && r.callbacks == s.callbacks && r.queue == s.queue
      && !r.ready && !r.timerArmed && r.hasInstance
      && r.waiters == s.waiters + [Waiter(Resend(e), true)]
    ensures r.toClient == s.toClient
    ensures r.ready ==> s.ready
  {
    if !(s.hasInstance && s.ready) then
      s.(queue := s.queue + [e])
    else if writeOk then
      s.(toChild := s.toChild + [e.request], callbacks := Register(s.callbacks, e))
    else
      var torn := s.(hasInstance := false, ready := false, timerArmed := false);
      Start(torn, Resend(e)).state
  }

  /** `processPlaywrightRequest` (lines 252-263). */
  function Process(s: Sup, e: Entry, writeOk: bool): (r: Sup)
    ensures !s.ready ==> r == s.(queue := s.queue + [e])
    ensures !s.ready ==> |r.queue| == |s.queue| + 1 && r.queue[|s.queue|] == e
    ensures s.ready ==> r == Send(s, e, writeOk)
    ensures r.ready ==> s.ready
    ensures r.toClient == s.toClient
  {
    if !s.ready then s.(queue := s.queue + [e]) else Send(s, e, writeOk)
  }

  /** One iteration of the drain loop of lines 204-210: shift, then process. */
  function DrainStep(s: Sup, writes: Writes): (r: Sup)
    requires |s.queue| > 0
    // with a deliverable child the head leaves the queue for good
    ensures s.ready && s.hasInstance ==> r.queue == s.queue[1..]
    // otherwise the head goes to the back: the queue only rotates
    ensures !(s.ready && s.hasInstance) ==>
      r == s.(queue := s.queue[1..] + [s.queue[0]])
  {
    Process(s.(queue := s.queue[1..]), s.queue[0], writes(|s.toChild|))
  }

  /** The requests of a queue, in queue order. */
  function Requests(q: seq<Entry>): (r: seq<Json>)
    ensures |r| == |q|
    ensures forall i :: 0 <= i < |q| ==> r[i] == q[i].request
  {
    if |q| == 0 then [] else [q[0].request] + Requests(q[1..])
  }

  /** The callback map after registering every entry of `q`, oldest first. */
  function RegisterAll(callbacks: map<Field, Handler>, q: seq<Entry>): map<Field, Handler>
    decreases |q|
  {
    if |q| == 0 then callbacks else RegisterAll(Register(callbacks, q[0]), q[1..])
  }

  datatype DrainOutcome = Done(state: Sup) | Spins

  /** `processPendingRequests` as written: the loop runs while the queue is
      non-empty. Once the queue meets a state in which the child is not
      deliverable, each iteration puts the head back at the end and the loop
      never ends (see DrainSpinsForever). */
  function Drain(s: Sup, writes: Writes): (r: DrainOutcome)
    decreases |s.queue|
  {
    if |s.queue| == 0 then Done(s)
    else if !(s.ready && s.hasInstance) then Spins
    else Drain(DrainStep(s, writes), writes)
  }

  /** `n` iterations of the drain loop, stopping early when the queue empties. */
  function Iterate(s: Sup, writes: Writes, n: nat): Sup
    decreases n
  {
    if n == 0 || |s.queue| == 0 then s else Iterate(DrainStep(s, writes), writes, n - 1)
  }

  /** When Drain answers Spins, no number of loop iterations empties the queue. */
  lemma {:induction false} DrainSpinsForever(s: Sup, writes: Writes, n: nat)
    requires Drain(s, writes) == Spins
    ensures |Iterate(s, writes, n).queue| > 0
    decreases |s.queue|, n
  {
    if n == 0 {
    } else if !(s.ready && s.hasInstance) {
      Rotates(s, writes, n);
    } else {
      DrainSpinsForever(DrainStep(s, writes), writes, n - 1);
    }
  }

  /** From an undeliverable state the loop only rotates the queue. */
  lemma {:induction false} Rotates(s: Sup, writes: Writes, n: nat)
    requires |s.queue| > 0 && !(s.ready && s.hasInstance)
    ensures |Iterate(s, writes, n).queue| == |s.queue|
    ensures !(Iterate(s, writes, n).ready && Iterate(s, writes, n).hasInstance)
    decreases n
  {
    if n > 0 {
      Rotates(DrainStep(s, writes), writes, n - 1);
    }
  }

  /** When Drain answers Done(r), the loop reaches r with an empty queue. */
  lemma {:induction false} DrainDoneIsLoopExit(s: Sup, writes: Writes, r: Sup)
    requires Drain(s, writes) == Done(r)
    ensures r.queue == []
    ensures Iterate(s, writes, |s.queue|) == r
    decreases |s.queue|
  {
    if |s.queue| > 0 {
      DrainDoneIsLoopExit(DrainStep(s, writes), writes, r);
    }
  }

  /** A failing first write during the drain with two queued requests: the
      first is parked for resending, and the second then circles the queue
      forever. */
  lemma DrainCanSpin(a: Entry, b: Entry, writes: Writes)
    requires !writes(0)
    ensures var s := Init().(hasInstance := true, ready := true, queue := [a, b]);
            Drain(s, writes) == Spins
  {
    var s := Init().(hasInstance := true, ready := true, queue := [a, b]);
    var s1 := DrainStep(s, writes);
    assert !s1.ready && s1.queue == [b];
  }

  /** The drain with the loop guard the code evidently intends: stop as soon
      as the child is no longer deliverable, leaving the rest queued. */
  function DrainGuarded(s: Sup, writes: Writes): (r: Sup)
    ensures r.ready ==> s.ready
    ensures r.toClient == s.toClient
    ensures |r.queue| <= |s.queue|
    ensures |s.toChild| <= |r.toChild| && r.toChild[..|s.toChild|] == s.toChild
    decreases |s.queue|
  {
    if |s.queue| == 0 || !(s.ready && s.hasInstance) then s
    else DrainGuarded(DrainStep(s, writes), writes)
  }

  /** Wherever the drain as written ends, the guarded drain ends in the same state. */
  lemma {:induction false} DrainGuardedAgrees(s: Sup, writes: Writes)
    requires Drain(s, writes).Done?
    ensures DrainGuarded(s, writes) == Drain(s, writes).state
    decreases |s.queue|
  {
    if |s.queue| > 0 {
      DrainGuardedAgrees(DrainStep(s, writes), writes);
    }
  }

  /** While every write succeeds and the child stays deliverable, the drain
      ends with an empty queue, having written the queued requests in FIFO
      order and registered their callbacks oldest first. */
  lemma {:induction false} DrainDeliversInOrder(s: Sup, writes: Writes)
    requires s.ready && s.hasInstance
    requires forall n :: |s.toChild| <= n < |s.toChild| + |s.queue| ==> writes(n)
    ensures Drain(s, writes).Done?
    ensures var r := Drain(s, writes).state;
            && r.queue == []
            && r.toChild == s.toChild + Requests(s.queue)
            && r.callbacks == RegisterAll(s.callbacks, s.queue)
            && r.ready && r.hasInstance && r.timerArmed == s.timerArmed
            && r.waiters == s.waiters && r.toClient == s.toClient
    decreases |s.queue|
  {
    if |s.queue| > 0 {
      var s1 := DrainStep(s, writes);
      DeliverStep(s, writes);
      DrainDeliversInOrder(s1, writes);
      assert Drain(s, writes) == Drain(s1, writes);
      var head, rest := s.queue[0].request, Requests(s.queue[1..]);
      assert Requests(s.queue) == [head] + rest;
      AppendAssoc(s.toChild, [head], rest);
      assert RegisterAll(s.callbacks, s.queue) == RegisterAll(s1.callbacks, s.queue[1..]);
    }
  }

  /** One drain step with a deliverable child and a successful write sends
      the head and registers its callback, and changes nothing else. */
  lemma DeliverStep(s: Sup, writes: Writes)
    requires s.ready && s.hasInstance && |s.queue| > 0 && writes(|s.toChild|)
    ensures var r := DrainStep(s, writes);
            && r.queue == s.queue[1..]
            && r.toChild == s.toChild + [s.queue[0].request]
            && r.callbacks == Register(s.callbacks, s.queue[0])
            && r.ready && r.hasInstance && r.timerArmed == s.timerArmed
            && r.waiters == s.waiters && r.toClient == s.toClient
  {
    var t := s.(queue := s.queue[1..]);
    assert Process(t, s.queue[0], writes(|s.toChild|)) == Send(t, s.queue[0], true);
  }

  /** The first `k` writes of a drain succeed and write `k + 1` throws. The
      guarded drain has then delivered exactly the first `k` requests, in
      order, parked the failing one for resending behind a fresh child, and
      kept the rest queued in order; the drain as written spins whenever any
      request remains behind the failing one. */
  lemma {:induction false} DrainStopsAtFailedWrite(s: Sup, writes: Writes, k: nat)
    requires s.ready && s.hasInstance && k < |s.queue|
    requires forall n :: |s.toChild| <= n < |s.toChild| + k ==> writes(n)
    requires !writes(|s.toChild| + k)
    ensures var r := DrainGuarded(s, writes);
            && r.toChild == s.toChild + Requests(s.queue[..k])
            && r.callbacks == RegisterAll(s.callbacks, s.queue[..k])
            && r.queue == s.queue[k + 1..]
            && !r.ready && !r.timerArmed && r.hasInstance
            && r.waiters == s.waiters + [Waiter(Resend(s.queue[k]), true)]
    ensures k + 1 < |s.queue| ==> Drain(s, writes) == Spins
    decreases k
  {
    var s1 := DrainStep(s, writes);
    if k == 0 {
      assert s.queue[..0] == [];
      assert s1.toChild == s.toChild && s1.queue == s.queue[1..];
    } else {
      DeliverStep(s, writes);
      DrainStopsAtFailedWrite(s1, writes, k - 1);
      assert s.queue[..k][1..] == s1.queue[..k - 1];
      var head, rest := s.queue[0].request, Requests(s1.queue[..k - 1]);
      assert Requests(s.queue[..k]) == [head] + rest;
      AppendAssoc(s.toChild, [head], rest);
      assert RegisterAll(s.callbacks, s.queue[..k]) == RegisterAll(s1.callbacks, s1.queue[..k - 1]);
      assert s1.queue[k - 1 + 1..] == s.queue[k + 1..];
    }
  }

  /** The guarded drain always ends: with an empty queue, or with the child
      undeliverable and the unsent rest of the queue kept in order. */
  lemma {:induction false} DrainGuardedEnds(s: Sup, writes: Writes)
    ensures var r := DrainGuarded(s, writes);
            r.queue == [] || !(r.ready && r.hasInstance)
    ensures var r := DrainGuarded(s, writes);
            s.ready && s.hasInstance ==> |r.queue| < |s.queue| || s.queue == []
    ensures var r := DrainGuarded(s, writes);
            s.ready && s.hasInstance ==> r.queue == s.queue[|s.queue| - |r.queue|..]
    decreases |s.queue|
  {
    if |s.queue| > 0 && s.ready && s.hasInstance {
      var s1 := DrainStep(s, writes);
      DrainGuardedEnds(s1, writes);
      var r := DrainGuarded(s, writes);
      if s1.ready && s1.hasInstance {
        assert s1.queue[|s1.queue| - |r.queue|..] == s.queue[|s.queue| - |r.queue|..];
      }
    }
  }

  /** The result of one child stdout chunk. */
  datatype Routed = Routed(state: Sup, invoke: Option<Invocation>)

  /** The child's stdout handler (service-manager.js:29-76). Reading `id` of a
      parsed `null` throws inside the try, and so does logging an id that
      `String` cannot convert; both are dropped like garbage. */
  function OnChildOutput(s: Sup, out: ChildOutput, writes: Writes): (r: Routed)
    // garbage, a null message, or a message without an id: nothing happens
    ensures out.parsed.None? || out.parsed.value.JNull? ==> r == Routed(s, None)
    ensures out.parsed.Some? && !out.parsed.value.JNull? && !Get(out.parsed.value, "id").Val? ==> r == Routed(s, None)
    ensures out.parsed.Some? && Get(out.parsed.value, "id") == Val(JNull) ==> r == Routed(s, None)
    // an id whose logging throws: dropped like garbage
    ensures out.parsed.Some? && UnprintableId(Get(out.parsed.value, "id")) ==> r == Routed(s, None)
    // a probe response is never relayed nor routed to a callback
    ensures out.parsed.Some? && IsProbeId(Get(out.parsed.value, "id")) ==>
      && r.invoke.None?
      && (s.ready ==> r.state == s)
      && (!s.ready ==> r.state == DrainGuarded(s.(ready := true, timerArmed := true), writes))
    // any other response: one-shot routing to the registered callback, else relay
    ensures out.parsed.Some? && !out.parsed.value.JNull? && !IsProbeId(Get(out.parsed.value, "id"))
            && Get(out.parsed.value, "id").Val? && Get(out.parsed.value, "id") != Val(JNull)
            && !UnprintableId(Get(out.parsed.value, "id")) ==>
      var id := Get(out.parsed.value, "id");
      if Primitive(id.v) && id in s.callbacks then
        r == Routed(s.(callbacks := s.callbacks - {id}), Some(Invocation(s.callbacks[id], out.parsed.value)))
      else
        r == Routed(s.(toClient := s.toClient + [Raw(out.raw)]), None)
    // readiness only ever changes on a probe response
    ensures r.state.ready != s.ready ==> out.parsed.Some? && IsProbeId(Get(out.parsed.value, "id"))
    // every invocation hands over an object
    ensures r.invoke.Some? ==> r.invoke.value.response.JObj?
  {
    match out.parsed
    case None => Routed(s, None)
    case Some(j) =>
      if j.JNull? then Routed(s, None)
      else
        var id := Get(j, "id");
        if UnprintableId(id) then Routed(s, None)
        else if IsProbeId(id) then
          if !s.ready then Routed(DrainGuarded(s.(ready := true, timerArmed := true), writes), None)
          else Routed(s, None)
        else if id.Val? && !id.v.JNull? then
          if Primitive(id.v) && id in s.callbacks then
            Routed(s.(callbacks := s.callbacks - {id}), Some(Invocation(s.callbacks[id], j)))
          else
            Routed(s.(toClient := s.toClient + [Raw(out.raw)]), None)
        else Routed(s, None)
  }

  /** A reply whose id is an object with its own `toString` member is neither
      routed nor relayed: logging it throws. */
  lemma ToStringKeyedIdIsDropped(s: Sup, raw: string, writes: Writes)
    ensures OnChildOutput(s, ChildOutput(raw, Some(JObj(map["id" := JObj(map["toString" := JNum(1)])]))), writes)
            == Routed(s, None)
  {
    var j := JObj(map["id" := JObj(map["toString" := JNum(1)])]);
    assert UnprintableId(Get(j, "id"));
  }

  /** Remove the `k`-th waiter. */
  function Without(ws: seq<Waiter>, k: nat): (r: seq<Waiter>)
    requires k < |ws|
    ensures |r| == |ws| - 1
  {
    ws[..k] + ws[k + 1..]
  }

  /** A 100 ms readiness poll of the `k`-th waiter (lines 172-177, 186-191):
      it resolves, and leaves, only when the child is ready. */
  function Poll(s: Sup, k: nat): (r: Started)
    ensures !(k < |s.waiters| && s.ready) ==> r == Started(s, None)
    ensures k < |s.waiters| && s.ready ==>
      r == Started(s.(waiters := Without(s.waiters, k)), Some(s.waiters[k].next))
  {
    if k < |s.waiters| && s.ready then Started(s.(waiters := Without(s.waiters, k)), Some(s.waiters[k].next))
    else Started(s, None)
  }

  /** The startup timeout of the `k`-th waiter (lines 194-199). Only waiters
      from the spawning branch have one. It rejects when the child is not
      ready; when it is ready the poll is cleared without resolving, and the
      promise never settles. */
  function Timeout(s: Sup, k: nat): (r: Started)
    ensures !(k < |s.waiters| && s.waiters[k].timed) ==> r == Started(s, None)
    ensures k < |s.waiters| && s.waiters[k].timed ==>
      && r.state == s.(waiters := Without(s.waiters, k))
      && (r.now.Some? <==> !s.ready)
      && (r.now.Some? ==> r.now.value == s.waiters[k].next)
  {
    if k < |s.waiters| && s.waiters[k].timed then
      var s1 := s.(waiters := Without(s.waiters, k));
      if s.ready then Started(s1, None) else Started(s1, Some(s.waiters[k].next))
    else Started(s, None)
  }
}
